=== FILE: README.md ===
# Campground booking backend — a Dafny model of its request rules

This project models the request-handling rules of a campground booking REST
backend (Express controllers over Mongoose models): who sees which bookings,
how a listing's query string becomes a database filter, a projection, a sort
and a page window, the three-booking cap, the breakfast downgrade, the
owner-or-admin policy, the cascade deletes of users and campgrounds, and the
Booking and Review schema rules with the booking duration hooks.

The database is four finite maps from ids to user, campground, booking and
review records (`Store.Store`). Every handler is a pure function from the
database, the logged-in actor `(id, role)` and the request to an HTTP status
and the database afterwards. What the database computes from a listing plan
(filtering, projection, sorting) is not executed; the plan itself and the
page window are.

Modules, following the program's files:

- `Common`, `Policy` — option type, ids, roles, the status codes, and the
  owner-or-admin rule shared by every guarded handler.
- `Text` — JavaScript's `parseInt(s, 10)`, `String(n)`, `split`/`join` and
  UTF-16 length, which the handlers and the schema lean on.
- `Operators` — the operator rewrite `\b(gt|gte|lt|lte[|in])\b → $…` over
  strings, its inverse, and the filter built from the query.
- `Pagination`, `ListQuery` — page/limit parsing, start and end index, the
  `next`/`prev` descriptor, the database's skip/limit, and the listing plan.
- `BookingModel`, `ReviewModel` — the schemas, `calculateDuration` and the
  `save`/`findOneAndUpdate` hooks.
- `Store` — the database, scoped booking sets and the two cascades.
- `Bookings`, `Auth`, `Campgrounds`, `Reviews` — the four controllers.
- `Invariants` — what the handlers keep and break across calls.

The model follows the code as written in these places: listing totals count
the whole collection rather than the filtered rows; the default booking sort
key is `checkInDate` while the schema field is `CheckInDate`; `getBooking` has
no ownership check; an update body may set a booking's `duration`, `user` and
`campground` directly, so the three-booking cap, checked only on creation, can
be passed by moving a booking to a user; a creation or update body may set
`createdAt`, which the schemas only default; and a booking listing's query filter is merged over
the scope, so it can replace it (see "## Findings").

## Model

| member | source | states |
|---|---|---|
| Bookings.GetBookings | controllers/bookings.js:4-89 | The scope (own bookings for a non-admin, the route's campground's or all for an admin) holds unless the query's filter conditions the scope's own field, in which case every booking is in scope; the plan uses the booking operators and page size 10; 200 exactly when the skip is non-negative, neither `select` nor `sort` is bracketed and the database accepts the plan, 500 otherwise; `next`/`prev` are computed against the number of all bookings |
| Operators.FieldOf | controllers/bookings.js:34 | The field a flattened filter key conditions is the key up to its first `[` |
| Bookings.UserParamWidensScope | controllers/bookings.js:9-34 | A non-admin whose query names `user` has another user's bookings in scope |
| Bookings.GetBookingsScoped | controllers/bookings.js:8-18 | With the scope applied after the filter, the listing's scope is exactly the one the role and route give, for every query |
| Bookings.ScopedListingHoldsScope | controllers/bookings.js:8-18 | A non-admin only ever sees their own bookings and an admin on a campground's route only that campground's; the scoped and as-written listings agree when the query leaves the scope's field alone |
| Bookings.GetBooking | controllers/bookings.js:91-113 | Any booking is returned by id with 200 regardless of owner; a missing id is 404 |
| Bookings.AddBooking | controllers/bookings.js:114-163 | A missing campground is 404 and nothing is stored, checked before the cap; a non-admin holding three or more bookings gets 400 and nothing is stored; past both, 200 exactly when both dates are given and any status is in the enumeration, 500 otherwise with the database unchanged; on success exactly one booking is added, owned by the actor and at the route's campground whatever the body says, with the body's dates, status (default `pending`) and creation time (default now) and a consistent duration; breakfast asked for at a campground without it is stored as false and a warning is given exactly then |
| Bookings.AddBookingMessageTellsRefusal | controllers/bookings.js:141-155 | A successful creation's message is the no-breakfast warning exactly when breakfast was refused, and the success text otherwise |
| Bookings.UpdateBooking | controllers/bookings.js:165-201 | A missing booking is 404; an actor neither owner nor admin gets 401 with nothing changed; past both, 200 exactly when any status is in the enumeration, 500 otherwise; dates, user, campground, status and creation time come from the body when named and stay otherwise; breakfast is forced to false, with a warning, exactly when asked for and the booking's campground is missing or has none, and is otherwise the body's or the stored one; a date in the body recomputes the duration from the resulting dates, otherwise the body's duration or the stored one is kept; only that booking changes |
| Bookings.DeleteBooking | controllers/bookings.js:208-235 | A missing booking is 404; an actor neither owner nor admin gets 401 and the booking is kept; otherwise exactly that booking is removed and nothing else changes |
| Auth.FindLoginUser | controllers/auth.js:60-66 | The lookup uses the email when one is given, the username otherwise; it finds nobody exactly when no user has that email (respectively username) |
| Auth.Login | controllers/auth.js:52-81 | 400 when the password is missing or both email and username are missing (the `&&` binding tighter than `\|\|`); 400 for an unknown user; 401 when the password does not match; 200 only for a user with the given email (or, with no email, the given username) whose stored password matches |
| Auth.LoginByUniqueEmail | controllers/auth.js:60-80 | A user whose email is theirs alone logs in with it and the right password (200, that user) and is refused with 401 for a wrong password, whatever username is sent |
| Auth.EmailOverridesUsername | controllers/auth.js:62-66 | With an email given, the username in the body has no effect on the outcome |
| Auth.UpdateUser | controllers/auth.js:114-142 | A user id with no record is 404; for an existing user, an update the validators or unique indexes refuse is 400, never 404, with nothing changed; otherwise 200, only username, name, telephone and email are written, each only when present; role and password never change; no other record changes |
| Auth.UpdateUserIdempotent | controllers/auth.js:116-129 | Sending the same details a second time leaves the database as it is |
| Auth.EmptyUpdateKeepsStore | controllers/auth.js:123-124 | A body with none of the four fields changes nothing |
| Auth.DeleteUser | controllers/auth.js:147-170 | A missing target is 404 and nothing is deleted; an actor neither the target nor an admin gets 403 and nothing is deleted; otherwise the target and exactly its bookings are removed, other users and their bookings, all campgrounds and all reviews stay |
| Campgrounds.GetCampgrounds | controllers/campgrounds.js:7-81 | Every campground is in scope; the plan uses the operators without `in` and page size 25; 200 exactly when the skip is non-negative, neither `select` nor `sort` is bracketed and the database accepts the plan, 400 otherwise; `next`/`prev` are computed against the number of all campgrounds |
| Campgrounds.PlainListingDefaults | controllers/campgrounds.js:30-68 | Without `select`, `sort`, `page` or `limit`, bracketed or not, the listing is sorted by `-createdAt`, unprojected, on page 1 with limit 25, succeeds exactly when the database accepts the plan, and then has no `prev` and has `next` exactly when there are more than 25 campgrounds |
| Campgrounds.GetCampground | controllers/campgrounds.js:86-94 | A missing id is 400, not 404 |
| Campgrounds.UpdateCampground | controllers/campgrounds.js:110-122 | A missing id is 400 with nothing changed; a body the validators refuse is 400 with nothing changed; otherwise the present fields replace that campground's and nothing else changes |
| Campgrounds.UpdateThenGet | controllers/campgrounds.js:86-122 | Reading a campground after a successful update gives the updated record, after a refused one the record as it was |
| Campgrounds.UpdateCampgroundIdempotent | controllers/campgrounds.js:110-122 | Sending the same update twice changes nothing the second time |
| Campgrounds.DeleteCampground | controllers/campgrounds.js:127-149 | A missing id is 404 and nothing is deleted; otherwise the campground and exactly its bookings are removed; other bookings, all users and all reviews, including this campground's, stay |
| Reviews.GetReviews | controllers/reviews.js:8-29 | With a campground id, exactly that campground's reviews; without, all reviews |
| Reviews.CampgroundReviewsNarrowAll | controllers/reviews.js:12-16 | A campground's reviews are exactly the reviews of the full list that name it, and every review is in its own campground's list |
| Reviews.GetReview | controllers/reviews.js:34-50 | A missing review is 404 |
| Reviews.AddReview | controllers/reviews.js:55-76 | A missing campground is 404 and nothing is created; the review is created (201) exactly when text and star are present and valid, with the route's campground and the actor as author whatever the body says, and the body's creation time or now; at an existing campground any other outcome is 400 with nothing changed |
| Reviews.UpdateReview | controllers/reviews.js:81-118 | A missing review is 404; an actor neither author nor admin gets 403 and the review is unchanged; for the author or an admin, 200 exactly when the present text and star pass the validators and 400 otherwise; then every named field, creation time included, replaces the stored one and only that review changes |
| Reviews.DeleteReview | controllers/reviews.js:124-151 | A missing review is 404; an actor neither author nor admin gets 403; otherwise exactly that review is removed |
| Operators.FilterOf | controllers/bookings.js:20-34 | No parameter whose top-level field is reserved (`select`, `sort`, `page`, `limit`, with or without brackets) reaches the filter; every other parameter does, key and value rewritten, and every filter key comes from such a parameter |
| Operators.RewriteFilter | controllers/bookings.js:28-34 | Rewriting the whole query text rewrites each key and each value; distinct keys stay distinct |
| Operators.UnrewriteRewrite | controllers/bookings.js:31 | The rewrite only inserts `$` before whole-word operators: removing those `$` gives the input back, so every other character is kept in order |
| Operators.RewriteInjective | controllers/bookings.js:31 | Two different strings never rewrite to the same string |
| Operators.NoBareOperatorAtStart | controllers/bookings.js:31 | After the rewrite no string starts with a bare operator word |
| Operators.RewriteWord | controllers/bookings.js:31 | A whole word is prefixed with `$` exactly when it is an operator |
| Operators.RewriteSeparator | controllers/bookings.js:31 | A non-word character splits the rewrite: each side is rewritten on its own |
| Operators.BracketedOperatorRewritten | controllers/bookings.js:31 | `field[op]` gets `$` before `op` exactly when `op` is an operator, and the field and brackets are kept |
| Operators.ValueEqualToOperatorIsRewritten | controllers/bookings.js:31 | For bookings a value that is exactly `in` is rewritten to `$in`, values being rewritten like keys |
| Operators.InKeptForCampgrounds | controllers/campgrounds.js:24 | For campgrounds `in` is not an operator and stays as it is |
| Operators.LongerWordKept | controllers/bookings.js:31 | A word that merely starts with an operator (`gtex`) is left as it is |
| Text.ParseIntOfDecimal | controllers/bookings.js:58-59 | `parseInt` reads back any decimal numeral whatever non-digit text follows it |
| Text.JoinSplitReplaces | controllers/bookings.js:44-51 | Splitting on `,` and joining with a space replaces every comma by a space and changes nothing else |
| Text.SplitJoinRoundTrip | controllers/bookings.js:44 | Splitting and joining on the same separator gives the input back |
| Text.CommaListToSpaces | controllers/bookings.js:43-51 | The select and sort strings keep their length, every comma becomes a space, and no comma remains |
| ListQuery.Projection | controllers/bookings.js:43-46 | A projection is set exactly when `select` is non-empty, and is then `select` with every comma replaced by a space and every other character kept in place |
| ListQuery.SortKeys | controllers/bookings.js:49-55 | Without a non-empty `sort` the listing's default key is used; otherwise `sort` with every comma replaced by a space and every other character kept in place |
| ListQuery.MakePlan | controllers/bookings.js:20-64 | The plan's filter holds every parameter whose top-level field is not reserved, key and value rewritten, leaves out every other, and holds no key that does not come from one; its projection, sort and window come from `select`, `sort`, `page` and `limit` |
| Pagination.IntParam | controllers/bookings.js:58-59 | A missing parameter, one that does not parse, and one that parses to 0 all give the default; any other parsed value is kept |
| Pagination.MakeWindow | controllers/bookings.js:58-61 | Page and limit are the parsed parameters with defaults 1 and the page size, the start index is `(page-1)·limit`; page and limit are never 0; a missing page gives page 1 and start 0; a missing limit gives the page size; the end index is the start plus the limit; positive page and limit give a non-negative start |
| Pagination.Describe | controllers/bookings.js:70-76 | `next = {page+1, limit}` exactly when the end index is below the total; `prev = {page-1, limit}` exactly when the start index is positive |
| Pagination.Take | controllers/bookings.js:64-67 | A negative skip is refused; otherwise exactly the absolute limit rows, or as many as remain past the skip when fewer (all of them for limit 0), are returned, a contiguous run starting at the skip |
| Pagination.PagesTile | controllers/bookings.js:60-64 | With a positive limit, the first k pages together are exactly the first k·limit rows: no row is skipped or repeated |
| Pagination.NextIffMoreRows | controllers/bookings.js:71-73 | When the total is the number of rows the query returns, `next` is offered exactly when the next page is non-empty |
| Pagination.FirstPageHasNoPrev | controllers/bookings.js:74-76 | Page 1 never has `prev` |
| Pagination.TwelveRowsTwoPages | controllers/bookings.js:58-76 | Twelve rows at ten per page: page 1 shows ten and points to page 2; page 2 shows two and points back |
| Pagination.NextCanPointPastFilteredRows | controllers/bookings.js:62 | Because the total counts all bookings, a filtered listing can offer a `next` page that is empty |
| BookingModel.ParseStatus | models/Booking.js:19-23 | A status string is accepted exactly when it names one of the five statuses |
| BookingModel.StatusRoundTrip | models/Booking.js:19-23 | Every status name is accepted as that status |
| BookingModel.CeilDays | models/Booking.js:42 | The day count is the least whole number of days covering the millisecond difference |
| BookingModel.DurationText | models/Booking.js:41-44 | The number in the duration text is the day count, and the text ends in `s` exactly when the count is above one |
| BookingModel.DurationExamples | models/Booking.js:41-44 | One day, half a day, three days and no time render as `1 day`, `1 day`, `3 days`, `0 day` |
| BookingModel.PreSave | models/Booking.js:46-52 | With both dates present the duration is computed from them; otherwise the document is untouched; no other field changes |
| BookingModel.Create | models/Booking.js:2-52 | A booking is created exactly when both dates, the user and the campground are present and any status names one of the five; the status defaults to `pending` and the creation time to now; the duration matches the dates |
| BookingModel.PreUpdate | models/Booking.js:54-67 | When the update names either date, the duration is recomputed with the missing date taken from the stored booking; otherwise the update is untouched |
| BookingModel.ApplyUpdate | models/Booking.js:19-37 | Every named field, creation time included, replaces the stored one and every other is kept; an update is refused exactly when it names a status outside the enumeration |
| BookingModel.UpdateKeepsDurationConsistent | models/Booking.js:54-67 | An update that names a date, or no duration, keeps the duration in step with the dates |
| BookingModel.UpdateCanDesyncDuration | models/Booking.js:58 | An update naming a duration but neither date stores that duration out of step with the dates |
| ReviewModel.Create | models/Review.js:3-29 | A review is created exactly when user, campground, text and star are all present, the text has 5 to 500 UTF-16 units and the star lies in [1, 5]; the creation time is the body's or now |
| ReviewModel.ApplyUpdate | models/Review.js:14-29 | An update is refused exactly when a present text or star is out of bounds; the named fields, creation time included, replace the stored ones and a valid review stays valid |
| ReviewModel.FractionalStarAccepted | models/Review.js:20-25 | A star of 2.5 is accepted: whole numbers are not required |
| Text.Utf16Length | models/Review.js:14-18 | The JavaScript length lies between the number of characters and twice that |
| Store.BookingsOf | controllers/bookings.js:130 | Exactly the bookings held by the user |
| Store.DropBookingsOf | controllers/auth.js:161 | Exactly the bookings of other users remain, unchanged |
| Store.DropBookingsAt | controllers/campgrounds.js:139 | Exactly the bookings of other campgrounds remain, unchanged |
| Store.Least | controllers/auth.js:63-65 | `findOne` returns one matching record: the least matching id |
| Invariants.DeleteUserKeepsRefs | controllers/auth.js:160-164 | If every booking names an existing user and campground, that stays so after deleting a user |
| Invariants.DeleteCampgroundKeepsRefs | controllers/campgrounds.js:138-140 | If every booking names an existing user and campground, that stays so after deleting a campground |
| Invariants.AddBookingKeepsRefs | controllers/bookings.js:116-149 | A new booking names an existing campground and, for a logged-in user, an existing user |
| Invariants.UpdateBookingCanBreakRefs | controllers/bookings.js:187-190 | An update body naming a missing campground is stored, leaving a booking that points at nothing |
| Invariants.UpdateBookingCanBreakCap | controllers/bookings.js:187-190 | Moving a booking by naming a user in the update body succeeds even when that user-role account already holds three, leaving it over the cap |
| Invariants.DeleteCampgroundLeavesReviews | controllers/campgrounds.js:138-140 | A deleted campground's reviews stay and point at nothing |
| Invariants.AddBookingKeepsValid | controllers/bookings.js:149 | After adding a booking every duration still matches its dates |
| Invariants.UpdateBookingKeepsValid | controllers/bookings.js:186-190 | After an update that names a date or no duration, every duration still matches its dates |
| Invariants.AddReviewKeepsValid | controllers/reviews.js:66 | Adding a review keeps every review within the schema bounds |
| Invariants.UpdateReviewKeepsValid | controllers/reviews.js:101-104 | Updating a review keeps every review within the schema bounds |
| Invariants.AddBookingKeepsCap | controllers/bookings.js:129-138 | If no user-role account holds more than three bookings, none does after a booking is added |
| Invariants.AdminNeverCapped | controllers/bookings.js:133 | An admin is never refused for the number of bookings held |
| Invariants.AddThenDeleteBooking | controllers/bookings.js:114-235 | Deleting, as its owner, the booking just created gives back the database as it was |
| Invariants.AddThenDeleteReview | controllers/reviews.js:55-151 | Deleting, as its author, the review just created gives back the database as it was |
| Invariants.DeleteBookingTwice | controllers/bookings.js:210-222 | A second delete of the same booking is 404 |
| Invariants.OwnershipRefusals | controllers/bookings.js:219 | Booking delete, review delete and user delete refuse exactly when the target exists and the actor is neither its owner nor an admin |

## Left out

- Express routing, `mergeParams` and the server bootstrap are wiring only. The `protect`/`authorize` middleware is not part of this model: its effect appears only as the actor passed in and, for the booking cap, as a precondition that the actor's role is the stored one.
- Registration, `getMe`, `logout`, `getAllUsers` and `createCampground` are not modelled: they hold no rule beyond a schema call, and the User and Campground schemas are not part of this model.
- JWT and cookie issuance are left out; password hashing is the parameter `matchPassword`.
- `Campgrounds.UpdateCampground`: the Campground schema's validators are a parameter `accepts`, because that schema is not part of this model.
- `Auth.UpdateUser`: the User schema's validators and the database's unique indexes are a parameter `accepts`, because that schema is not part of this model.
- `populate`, field projection and sort execution are left out. A listing's filter, projection and sort are returned as a plan rather than executed; only the page window is applied to rows (`Pagination.Take`).
- `JSON.stringify`/`JSON.parse` around the operator rewrite are left out. The filter is modelled as the map of raw `field[op]` keys to values with every key and value rewritten. That equals rewriting the JSON text unless a string holds a control character, which JSON escapes with a letter; such strings are not modelled.
- A bracketed query key is read for its top-level field (`Operators.FieldOf`): a bracketed `select` or `sort` makes the handler call `split` on an object and fail (`ListQuery.NestedListParam`), and a bracketed `page` or `limit` parses as `NaN`, giving the default. Array-valued parameters (a repeated key) are left out; every parameter value is one string.
- Mongoose casting errors on ids and bodies are left out: an id that is not an ObjectId, and a body field of the wrong type, both answered by the handlers' catch blocks.
- `Bookings.GetBookings`, `Campgrounds.GetCampgrounds`: whether Mongoose casts the filter's values and the database accepts the projection and sort is the parameter `dbAccepts`, because the schemas' casting rules and the database are not part of this model.
- `Auth.Login`: credentials are strings. An object-valued email or username (such as `{"$ne": ""}`, which `findOne` reads as a query operator) and a non-string password (on which `matchPassword` throws, with no catch in `login`, so only the process-level handler sees it) are not modelled.
- Dates are integer millisecond timestamps; `Date` parsing, time zones and invalid dates are left out. So is the misspelled `defalt` on `breakfast`, which Mongoose ignores, so an absent breakfast stays absent.
- The `update.CheckInDate || booking.CheckInDate` test treats the epoch itself (timestamp 0) as absent. The model treats every present date as given.
- `BookingModel.CeilDays`: JavaScript's floating-point division is modelled as exact integer ceiling division, and `parseInt` as exact above 2^53.
- Concurrency: count-then-create and delete-children-then-parent are single steps here, although they are not atomic.
- Logging and the process-level `unhandledRejection` handler are left out.
- Fresh ids and the current time are parameters (`newId`, `now`); the id generator's freshness is a precondition.
- `Store.Least`: which of several matching users `findOne` returns depends on the database's natural order. The model fixes the least id.

## Findings

| source | as written | input that shows it | evidently intended | confidence | as-written member | corrected member |
|---|---|---|---|---|---|---|
| controllers/bookings.js:9-34 | The scope's `find({ user })` comes first and the query's filter is merged into it afterwards, so a filter condition on `user` replaces the scope's (on `campground` for an admin's campground route) | a non-admin's `GET /bookings?user=<another user's id>` | A user sees only their own bookings whatever the query | medium, not executed | Bookings.UserParamWidensScope | Bookings.ScopedListingHoldsScope |

=== FILE: auth.dfy ===
/** The account handlers: logging in, editing one's own details and deleting
    an account together with its bookings. */
module Auth {
  import opened Common
  import opened Policy
  import opened Store

  /** The login body. Each field is absent or a string. */
  datatype Credentials = Credentials(email: Option<string>, username: Option<string>, password: Option<string>)

  /** The login answer: the status and, on success, the user the token is for. */
  datatype LoginReply = LoginReply(status: int, user: Option<Id>)

  /** `User.findOne(...)` by email when an email is given, by username
      otherwise; `None` when nothing matches. */
  function FindLoginUser(users: map<Id, User>, c: Credentials): (r: Option<Id>)
    requires Truthy(c.email) || Truthy(c.username)
    ensures Truthy(c.email) ==>
              (r.None? <==> forall id :: id in users ==> users[id].email != c.email.value)
    ensures Truthy(c.email) && r.Some? ==> r.value in users && users[r.value].email == c.email.value
    ensures !Truthy(c.email) ==>
              (r.None? <==> forall id :: id in users ==> users[id].username != c.username.value)
    ensures !Truthy(c.email) && r.Some? ==> r.value in users && users[r.value].username == c.username.value
  {
    var matches :=
      if Truthy(c.email) then IdsWhere(users, (u: User) => u.email == c.email.value)
      else IdsWhere(users, (u: User) => u.username == c.username.value);
    if matches == {} then None else Some(Least(matches))
  }

  /** A login body names a password and at least one of email and username. */
  predicate HasCredentials(c: Credentials) {
    Truthy(c.password) && (Truthy(c.email) || Truthy(c.username))
  }

  /** `login`. Missing credentials are 400 (a password and at least one of
      email and username are needed); an unknown user is 400; a password
      the stored hash does not match is 401; a matching one is 200 for the
      user found. `matchPassword(given, stored)` stands for the hash
      comparison. */
  function Login(s: Store, c: Credentials, matchPassword: (string, string) -> bool): (r: LoginReply)
    ensures !Truthy(c.password) ==> r == LoginReply(BadRequest, None)
    ensures !Truthy(c.email) && !Truthy(c.username) ==> r == LoginReply(BadRequest, None)
    ensures HasCredentials(c) && FindLoginUser(s.users, c).None? ==> r == LoginReply(BadRequest, None)
    ensures HasCredentials(c) && FindLoginUser(s.users, c).Some? ==>
              var u := FindLoginUser(s.users, c).value;
              && (matchPassword(c.password.value, s.users[u].password) ==> r == LoginReply(OK, Some(u)))
              && (!matchPassword(c.password.value, s.users[u].password) ==> r == LoginReply(Unauthorized, None))
    ensures r.status == OK <==> r.user.Some?
    ensures r.status in {OK, BadRequest, Unauthorized}
    ensures r.status == OK ==>
              && Truthy(c.password)
              && r.user.value in s.users
              && matchPassword(c.password.value, s.users[r.user.value].password)
              && (Truthy(c.email) ==> s.users[r.user.value].email == c.email.value)
              && (!Truthy(c.email) ==> s.users[r.user.value].username == c.username.value)
    ensures r.status == Unauthorized ==> Truthy(c.password)
  {
    if (!Truthy(c.email) && !Truthy(c.username)) || !Truthy(c.password) then LoginReply(BadRequest, None)
    else
      match FindLoginUser(s.users, c)
      case None => LoginReply(BadRequest, None)
      case Some(id) =>
        if !matchPassword(c.password.value, s.users[id].password) then LoginReply(Unauthorized, None)
        else LoginReply(OK, Some(id))
  }

  /** A given email decides the lookup: the username is then not consulted. */
  lemma EmailOverridesUsername(s: Store, c: Credentials, other: Option<string>, matchPassword: (string, string) -> bool)
    requires Truthy(c.email)
    ensures Login(s, c, matchPassword) == Login(s, c.(username := other), matchPassword)
  {
  }

  /** A user whose email no other user shares logs in with that email and
      the right password, whatever username the body carries, and is refused
      with 401 for a wrong one. */
  lemma LoginByUniqueEmail(s: Store, id: Id, password: string, username: Option<string>,
                           matchPassword: (string, string) -> bool)
    requires id in s.users && s.users[id].email != "" && password != ""
    requires forall other :: other in s.users && s.users[other].email == s.users[id].email ==> other == id
    ensures var r := Login(s, Credentials(Some(s.users[id].email), username, Some(password)), matchPassword);
            r == if matchPassword(password, s.users[id].password) then LoginReply(OK, Some(id))
                 else LoginReply(Unauthorized, None)
  {
    var c := Credentials(Some(s.users[id].email), username, Some(password));
    var found := FindLoginUser(s.users, c);
    assert found.Some?;
    assert found.value == id;
  }

  /** The `updateUser` body: only these four fields are read; each is
      applied when present. */
  datatype UserFields = UserFields(
    username: Option<string>,
    name: Option<string>,
    telephone: Option<string>,
    email: Option<string>)

  /** The details of `u` after the present fields of `f` are written. */
  function ApplyUserFields(u: User, f: UserFields): (r: User)
    ensures r.role == u.role && r.password == u.password
    ensures r.username == f.username.GetOr(u.username) && r.name == f.name.GetOr(u.name)
    ensures r.telephone == f.telephone.GetOr(u.telephone) && r.email == f.email.GetOr(u.email)
  {
    u.(username := f.username.GetOr(u.username),
       name := f.name.GetOr(u.name),
       telephone := f.telephone.GetOr(u.telephone),
       email := f.email.GetOr(u.email))
  }

  /** `updateUser`: the logged-in user's own record is updated; a user id
      with no record is 404, and an update the schema validators or the
      database's unique indexes refuse is 400 (`accepts` stands for them,
      for the database as it is). The role and password never change, and
      no other record is touched. */
  function UpdateUser(s: Store, actor: Actor, f: UserFields, accepts: User -> bool): (r: Reply)
    ensures actor.id !in s.users ==> r == Reply(NotFound, s, None)
    ensures r.status != OK ==> r.store == s && r.warning.None?
    ensures r.status in {OK, NotFound, BadRequest}
    ensures actor.id in s.users && r.status != OK ==> r.status == BadRequest
    ensures r.status == OK <==> actor.id in s.users && accepts(ApplyUserFields(s.users[actor.id], f))
    ensures r.status == OK ==>
              && actor.id in r.store.users
              && r.store == s.(users := s.users[actor.id := r.store.users[actor.id]])
    ensures r.status == OK ==>
              var before := s.users[actor.id];
              var after := r.store.users[actor.id];
              && after.role == before.role && after.password == before.password
              && (f.username.Some? ==> after.username == f.username.value)
              && (f.username.None? ==> after.username == before.username)
              && (f.name.Some? ==> after.name == f.name.value)
              && (f.name.None? ==> after.name == before.name)
              && (f.telephone.Some? ==> after.telephone == f.telephone.value)
              && (f.telephone.None? ==> after.telephone == before.telephone)
              && (f.email.Some? ==> after.email == f.email.value)
              && (f.email.None? ==> after.email == before.email)
  {
    if actor.id !in s.users then Reply(NotFound, s, None)
    else
      var updated := ApplyUserFields(s.users[actor.id], f);
      if !accepts(updated) then Reply(BadRequest, s, None)
      else Reply(OK, s.(users := s.users[actor.id := updated]), None)
  }

  /** Sending the same details twice changes nothing the second time. */
  lemma UpdateUserIdempotent(s: Store, actor: Actor, f: UserFields, accepts: User -> bool)
    ensures var once := UpdateUser(s, actor, f, accepts).store;
            UpdateUser(once, actor, f, accepts).store == once
  {
    if actor.id in s.users && accepts(ApplyUserFields(s.users[actor.id], f)) {
      var once := UpdateUser(s, actor, f, accepts).store;
      assert once.users[actor.id] == ApplyUserFields(s.users[actor.id], f);
      assert ApplyUserFields(once.users[actor.id], f) == once.users[actor.id];
      assert once.users[actor.id := once.users[actor.id]] == once.users;
    }
  }

  /** An update with no fields leaves the database as it is. */
  lemma EmptyUpdateKeepsStore(s: Store, actor: Actor, accepts: User -> bool)
    ensures UpdateUser(s, actor, UserFields(None, None, None, None), accepts).store == s
  {
    if actor.id in s.users {
      assert ApplyUserFields(s.users[actor.id], UserFields(None, None, None, None)) == s.users[actor.id];
      assert s.users[actor.id := s.users[actor.id]] == s.users;
    }
  }

  /** `deleteUser`. A missing target is 404; an actor who is neither the
      target nor an admin gets 403; otherwise the target's bookings are
      removed and then the target. Other users' bookings, every review and
      every campground stay as they were. */
  function DeleteUser(s: Store, actor: Actor, target: Id): (r: Reply)
    ensures target !in s.users ==> r == Reply(NotFound, s, None)
    ensures target in s.users && !MayModify(actor, target) ==> r == Reply(Forbidden, s, None)
    ensures target in s.users && MayModify(actor, target) ==>
              && r.status == OK
              && r.store.users.Keys == s.users.Keys - {target}
              && (forall u :: u in r.store.users ==> r.store.users[u] == s.users[u])
              && (forall id :: id in r.store.bookings <==> id in s.bookings && s.bookings[id].user != target)
              && (forall id :: id in r.store.bookings ==> r.store.bookings[id] == s.bookings[id])
              && r.store.campgrounds == s.campgrounds
              && r.store.reviews == s.reviews
  {
    if target !in s.users then Reply(NotFound, s, None)
    else if !MayModify(actor, target) then Reply(Forbidden, s, None)
    else
      var afterBookings := s.(bookings := DropBookingsOf(s.bookings, target));
      Reply(OK, afterBookings.(users := afterBookings.users - {target}), None)
  }
}

=== FILE: booking_model.dfy ===
/** The Booking schema: its fields, the status enumeration, the duration
    text and the two hooks that keep the duration in step with the dates. */
module BookingModel {
  import opened Common
  import opened Text

  /** The `status` enumeration of the schema. */
  datatype Status = Pending | Confirmed | CheckedIn | CheckedOut | Cancelled

  /** The status a booking gets when the request names none. */
  const DefaultStatus := Pending

  function StatusName(st: Status): string {
    match st
    case Pending => "pending"
    case Confirmed => "confirmed"
    case CheckedIn => "checked-in"
    case CheckedOut => "checked-out"
    case Cancelled => "cancelled"
  }

  /** The enum validator: a status string is accepted exactly when it names
      one of the five statuses. */
  function ParseStatus(s: string): (r: Option<Status>)
    ensures r.Some? ==> StatusName(r.value) == s
    ensures r.None? ==> forall st: Status :: StatusName(st) != s
  {
    if s == "pending" then Some(Pending)
    else if s == "confirmed" then Some(Confirmed)
    else if s == "checked-in" then Some(CheckedIn)
    else if s == "checked-out" then Some(CheckedOut)
    else if s == "cancelled" then Some(Cancelled)
    else None
  }

  lemma StatusRoundTrip(st: Status)
    ensures ParseStatus(StatusName(st)) == Some(st)
  {
  }

  /** Milliseconds in a calendar day, `1000 * 60 * 60 * 24`. */
  const MsPerDay := 1000 * 60 * 60 * 24

  /** `Math.ceil(ms / MsPerDay)` for an integer number of milliseconds: the
      least whole number of days that covers `ms`. */
  function CeilDays(ms: int): (d: int)
    ensures (d - 1) * MsPerDay < ms <= d * MsPerDay
  {
    -((-ms) / MsPerDay)
  }

  /** The day count between two timestamps (milliseconds since the epoch). */
  function Days(checkIn: int, checkOut: int): int {
    CeilDays(checkOut - checkIn)
  }

  /** `calculateDuration`: the day count followed by ` day`, with an `s` only
      when the count is above one. */
  function CalculateDuration(checkIn: int, checkOut: int): string {
    var days := Days(checkIn, checkOut);
    IntToDecimal(days) + " day" + (if days > 1 then "s" else "")
  }

  /** The number in a duration text is the day count, and the text ends in
      `s` exactly when that count is above one. */
  lemma DurationText(checkIn: int, checkOut: int)
    ensures ParseInt(CalculateDuration(checkIn, checkOut)) == Some(Days(checkIn, checkOut))
    ensures var t := CalculateDuration(checkIn, checkOut);
            |t| > 0 && (t[|t| - 1] == 's' <==> Days(checkIn, checkOut) > 1)
  {
    var days := Days(checkIn, checkOut);
    var suffix := " day" + (if days > 1 then "s" else "");
    assert CalculateDuration(checkIn, checkOut) == IntToDecimal(days) + suffix;
    ParseIntOfDecimal(days, suffix);
  }

  /** One, three and zero days render as `1 day`, `3 days` and `0 day`; half a
      day rounds up to one. */
  lemma DurationExamples(t: int)
    ensures CalculateDuration(t, t + MsPerDay) == "1 day"
    ensures CalculateDuration(t, t + MsPerDay / 2) == "1 day"
    ensures CalculateDuration(t, t + 3 * MsPerDay) == "3 days"
    ensures CalculateDuration(t, t) == "0 day"
  {
    assert Days(t, t + MsPerDay) == 1;
    assert Days(t, t + MsPerDay / 2) == 1;
    assert Days(t, t + 3 * MsPerDay) == 3;
    assert Days(t, t) == 0;
    assert IntToDecimal(1) == "1";
    assert IntToDecimal(3) == "3";
    assert IntToDecimal(0) == "0";
  }

  /** A stored booking. The schema requires both dates, the user and the
      campground; `breakfast` has no default, so it may be absent. */
  datatype Booking = Booking(
    checkIn: int,
    checkOut: int,
    duration: string,
    breakfast: Option<bool>,
    status: Status,
    user: Id,
    campground: Id,
    createdAt: int)

  /** The booking fields a request body may carry, on creation and on update.
      `createdAt` only has a default in the schema, so a body may set it. */
  datatype Fields = Fields(
    checkIn: Option<int>,
    checkOut: Option<int>,
    duration: Option<string>,
    breakfast: Option<bool>,
    status: Option<string>,
    user: Option<Id>,
    campground: Option<Id>,
    createdAt: Option<int>)

  /** A body that names no field. */
  const EmptyBody := Fields(None, None, None, None, None, None, None, None)

  /** The stored duration is the one the dates give. */
  predicate DurationConsistent(b: Booking) {
    b.duration == CalculateDuration(b.checkIn, b.checkOut)
  }

  /** The pre-`save` hook: with both dates present the duration is computed
      from them; otherwise the document is left as it is. */
  function PreSave(d: Fields): (r: Fields)
    ensures r.(duration := d.duration) == d
    ensures d.checkIn.Some? && d.checkOut.Some? ==>
              r.duration == Some(CalculateDuration(d.checkIn.value, d.checkOut.value))
    ensures d.checkIn.None? || d.checkOut.None? ==> r == d
  {
    if d.checkIn.Some? && d.checkOut.Some? then
      d.(duration := Some(CalculateDuration(d.checkIn.value, d.checkOut.value)))
    else d
  }

  /** `Booking.create`: schema validation (required fields, status
      enumeration, `pending` by default, creation time `now` unless the body
      gives one) and then the pre-`save` hook. */
  function Create(d: Fields, now: int): (r: Option<Booking>)
    ensures r.Some? <==>
              && d.checkIn.Some? && d.checkOut.Some? && d.user.Some? && d.campground.Some?
              && (d.status.None? || ParseStatus(d.status.value).Some?)
    ensures r.Some? ==>
              && DurationConsistent(r.value)
              && r.value.checkIn == d.checkIn.value && r.value.checkOut == d.checkOut.value
              && r.value.user == d.user.value && r.value.campground == d.campground.value
              && r.value.breakfast == d.breakfast && r.value.createdAt == d.createdAt.GetOr(now)
              && StatusName(r.value.status) == d.status.GetOr(StatusName(DefaultStatus))
  {
    if d.checkIn.None? || d.checkOut.None? || d.user.None? || d.campground.None? then None
    else
      var status := if d.status.None? then Some(DefaultStatus) else ParseStatus(d.status.value);
      if status.None? then None
      else
        var saved := PreSave(d);
        Some(Booking(saved.checkIn.value, saved.checkOut.value, saved.duration.value,
                     saved.breakfast, status.value, saved.user.value, saved.campground.value, saved.createdAt.GetOr(now)))
  }

  /** The pre-`findOneAndUpdate` hook: when the update names either date, the
      duration is recomputed from the update's dates, the missing one taken
      from the stored booking; otherwise the update is left as it is. */
  function PreUpdate(u: Fields, stored: Booking): (r: Fields)
    ensures r.(duration := u.duration) == u
    ensures u.checkIn.Some? || u.checkOut.Some? ==>
              r.duration == Some(CalculateDuration(u.checkIn.GetOr(stored.checkIn), u.checkOut.GetOr(stored.checkOut)))
    ensures u.checkIn.None? && u.checkOut.None? ==> r == u
  {
    if u.checkIn.Some? || u.checkOut.Some? then
      u.(duration := Some(CalculateDuration(u.checkIn.GetOr(stored.checkIn), u.checkOut.GetOr(stored.checkOut))))
    else u
  }

  /** `findByIdAndUpdate` with validators: every field the update names
      replaces the stored one; a status outside the enumeration is rejected. */
  function ApplyUpdate(b: Booking, u: Fields): (r: Option<Booking>)
    ensures r.None? <==> u.status.Some? && ParseStatus(u.status.value).None?
    ensures r.Some? ==>
              && r.value.checkIn == u.checkIn.GetOr(b.checkIn)
              && r.value.checkOut == u.checkOut.GetOr(b.checkOut)
              && r.value.duration == u.duration.GetOr(b.duration)
              && r.value.user == u.user.GetOr(b.user)
              && r.value.campground == u.campground.GetOr(b.campground)
              && r.value.createdAt == u.createdAt.GetOr(b.createdAt)
              && (u.breakfast.Some? ==> r.value.breakfast == u.breakfast)
              && (u.breakfast.None? ==> r.value.breakfast == b.breakfast)
              && (u.status.None? ==> r.value.status == b.status)
              && (u.status.Some? ==> StatusName(r.value.status) == u.status.value)
  {
    var status := if u.status.None? then Some(b.status) else ParseStatus(u.status.value);
    if status.None? then None
    else
      Some(Booking(
        u.checkIn.GetOr(b.checkIn),
        u.checkOut.GetOr(b.checkOut),
        u.duration.GetOr(b.duration),
        if u.breakfast.Some? then u.breakfast else b.breakfast,
        status.value,
        u.user.GetOr(b.user),
        u.campground.GetOr(b.campground),
        u.createdAt.GetOr(b.createdAt)))
  }

  /** An update through the hook keeps the duration in step with the dates,
      unless it writes a duration of its own without touching either date. */
  lemma UpdateKeepsDurationConsistent(b: Booking, u: Fields)
    requires DurationConsistent(b)
    requires u.duration.None? || u.checkIn.Some? || u.checkOut.Some?
    ensures var r := ApplyUpdate(b, PreUpdate(u, b));
            r.Some? ==> DurationConsistent(r.value)
  {
  }

  /** An update that names a duration but neither date stores that duration
      as it is, out of step with the dates. */
  lemma UpdateCanDesyncDuration(b: Booking)
    requires DurationConsistent(b)
    ensures var u := EmptyBody.(duration := Some(""));
            var r := ApplyUpdate(b, PreUpdate(u, b));
            r.Some? && !DurationConsistent(r.value)
  {
    var t := CalculateDuration(b.checkIn, b.checkOut);
    assert |t| > 0;
  }
}

=== FILE: bookings.dfy ===
/** The booking controller: listing, reading, creating, updating and
    deleting bookings. */
module Bookings {
  import opened Common
  import opened Policy
  import opened Operators
  import opened Pagination
  import opened ListQuery
  import opened BookingModel
  import opened Store

  /** A user without the admin role may hold at most this many bookings. */
  const MaxBookings := 3

  const NoBreakfastWarning := "This campground has no breakfast service. Breakfast has been set to false."
  const CreatedMessage := "Booking created successfully"

  /** Default sort of the listing. The schema's field is `CheckInDate`; this
      key is kept as the handler spells it. */
  const DefaultSort := "checkInDate"

  /** The condition the handler's first `find` puts on a listing: a user is
      held to their own bookings, an admin on a campground's route to that
      campground's, an admin elsewhere to nothing. */
  datatype Scope = AllBookings | OwnedBy(user: Id) | AtCampground(campground: Id)

  function ScopeOf(actor: Actor, campgroundId: Option<Id>): Scope {
    if actor.role != Admin then OwnedBy(actor.id)
    else if campgroundId.Some? then AtCampground(campgroundId.value)
    else AllBookings
  }

  /** The ids a scope admits on its own. */
  function ScopeIds(s: Store, sc: Scope): (r: set<Id>)
    ensures sc.OwnedBy? ==> forall id :: id in r <==> id in s.bookings && s.bookings[id].user == sc.user
    ensures sc.AtCampground? ==>
              forall id :: id in r <==> id in s.bookings && s.bookings[id].campground == sc.campground
    ensures sc.AllBookings? ==> r == s.bookings.Keys
  {
    match sc
    case AllBookings => s.bookings.Keys
    case OwnedBy(u) => BookingsOf(s.bookings, u)
    case AtCampground(c) => BookingsAt(s.bookings, c)
  }

  /** Whether the query's filter puts its own condition on the field the scope
      holds: merging the filter into the scoped query then replaces the
      scope's condition on that field. */
  predicate Overridden(sc: Scope, filter: map<string, string>) {
    match sc
    case AllBookings => false
    case OwnedBy(_) => NamesField(filter, "user")
    case AtCampground(_) => NamesField(filter, "campground")
  }

  /** `getBookings` as written. The scope's `find` comes first and the query's
      filter is merged into it afterwards, so a filter condition on `user` (on
      `campground` for an admin's campground route) replaces the scope's:
      every booking is then in scope and the query's own condition decides.
      Otherwise a user sees their own bookings, whatever campground the route
      names, and an admin one campground's bookings or all of them. Filter,
      projection, sort and window come from the query string; `total` is the
      number of all bookings. The listing fails with 500 when `select` or
      `sort` comes with brackets, when the skip is negative, and when the
      database refuses the plan: `dbAccepts` stands for Mongoose casting the
      filter's values to the schema's types and the database accepting the
      projection and sort. */
  function GetBookings(s: Store, actor: Actor, campgroundId: Option<Id>, query: map<string, string>,
                       dbAccepts: Plan -> bool): (r: ListReply)
    ensures var sc := ScopeOf(actor, campgroundId);
            r.visible == if Overridden(sc, r.plan.filter) then s.bookings.Keys else ScopeIds(s, sc)
    ensures actor.role != Admin && !NamesField(r.plan.filter, "user") ==>
              forall id :: id in r.visible <==> id in s.bookings && s.bookings[id].user == actor.id
    ensures actor.role == Admin && campgroundId.Some? && !NamesField(r.plan.filter, "campground") ==>
              forall id :: id in r.visible <==> id in s.bookings && s.bookings[id].campground == campgroundId.value
    ensures actor.role == Admin && campgroundId.None? ==> r.visible == s.bookings.Keys
    ensures r.plan == MakePlan(query, BookingOperators, BookingPageSize, DefaultSort)
    ensures r.status == OK <==> r.plan.window.startIndex >= 0 && !NestedListParam(query) && dbAccepts(r.plan)
    ensures r.status != OK ==> r.status == ServerError
    ensures r.status == OK ==> r.pagination == Describe(r.plan.window, |s.bookings|)
  {
    var plan := MakePlan(query, BookingOperators, BookingPageSize, DefaultSort);
    var sc := ScopeOf(actor, campgroundId);
    var visible := if Overridden(sc, plan.filter) then s.bookings.Keys else ScopeIds(s, sc);
    if plan.window.startIndex < 0 || NestedListParam(query) || !dbAccepts(plan) then
      ListReply(ServerError, visible, plan, Descriptor(None, None))
    else ListReply(OK, visible, plan, Describe(plan.window, |s.bookings|))
  }

  /** A plain `user` parameter reaches the filter unchanged. */
  lemma UserKeyKept(query: map<string, string>)
    requires "user" in query
    ensures NamesField(MakePlan(query, BookingOperators, BookingPageSize, DefaultSort).filter, "user")
  {
    UserNotRewritten();
    UserNotReserved();
    FieldOfPlain("user");
    var filter := MakePlan(query, BookingOperators, BookingPageSize, DefaultSort).filter;
    assert "user" in filter && FieldOf("user") == "user";
  }

  lemma UserNotRewritten()
    ensures Rewrite("user", BookingOperators) == "user"
  {
    RewriteWord("user", BookingOperators);
  }

  lemma UserNotReserved()
    ensures "user" !in ReservedKeys
  {
  }

  /** A user who adds `user=...` to the query escapes their scope: another
      user's booking is then in scope, and the query's condition picks it. */
  lemma UserParamWidensScope(s: Store, actor: Actor, campgroundId: Option<Id>, query: map<string, string>,
                             dbAccepts: Plan -> bool, other: Id)
    requires actor.role != Admin
    requires "user" in query
    requires other in s.bookings && s.bookings[other].user != actor.id
    ensures other in GetBookings(s, actor, campgroundId, query, dbAccepts).visible
  {
    UserKeyKept(query);
  }

  /** `getBookings` with the scope applied after the query's filter, so that
      the scope's condition wins on its own field: what the listing is meant
      to show. */
  function GetBookingsScoped(s: Store, actor: Actor, campgroundId: Option<Id>, query: map<string, string>,
                             dbAccepts: Plan -> bool): (r: ListReply)
    ensures r.visible == ScopeIds(s, ScopeOf(actor, campgroundId))
    ensures r.plan == MakePlan(query, BookingOperators, BookingPageSize, DefaultSort)
    ensures r.status == OK <==> r.plan.window.startIndex >= 0 && !NestedListParam(query) && dbAccepts(r.plan)
    ensures r.status != OK ==> r.status == ServerError
    ensures r.status == OK ==> r.pagination == Describe(r.plan.window, |s.bookings|)
  {
    var plan := MakePlan(query, BookingOperators, BookingPageSize, DefaultSort);
    var visible := ScopeIds(s, ScopeOf(actor, campgroundId));
    if plan.window.startIndex < 0 || NestedListParam(query) || !dbAccepts(plan) then
      ListReply(ServerError, visible, plan, Descriptor(None, None))
    else ListReply(OK, visible, plan, Describe(plan.window, |s.bookings|))
  }

  /** With the scope applied last, a user sees only their own bookings and an
      admin on a campground's route only that campground's, whatever the
      query; and the two listings agree whenever the query leaves the
      scope's field alone. */
  lemma ScopedListingHoldsScope(s: Store, actor: Actor, campgroundId: Option<Id>, query: map<string, string>,
                                dbAccepts: Plan -> bool)
    ensures var r := GetBookingsScoped(s, actor, campgroundId, query, dbAccepts);
            && (actor.role != Admin ==> forall id :: id in r.visible ==> s.bookings[id].user == actor.id)
            && (actor.role == Admin && campgroundId.Some? ==>
                  forall id :: id in r.visible ==> s.bookings[id].campground == campgroundId.value)
    ensures var r := GetBookingsScoped(s, actor, campgroundId, query, dbAccepts);
            !Overridden(ScopeOf(actor, campgroundId), r.plan.filter) ==>
              GetBookings(s, actor, campgroundId, query, dbAccepts) == r
  {
  }

  /** `getBooking`: any authenticated user may read any booking by id; there
      is no ownership check. */
  function GetBooking(s: Store, actor: Actor, id: Id): (r: (int, Option<Booking>))
    ensures id in s.bookings ==> r == (OK, Some(s.bookings[id]))
    ensures id !in s.bookings ==> r == (NotFound, None)
  {
    if id in s.bookings then (OK, Some(s.bookings[id])) else (NotFound, None)
  }

  /** Whether a breakfast request must be turned down: breakfast was asked
      for and the campground is missing or serves none. */
  predicate BreakfastRefused(s: Store, requested: Option<bool>, campground: Id) {
    requested == Some(true) && !(campground in s.campgrounds && s.campgrounds[campground].breakfast)
  }

  /** Whether the schema accepts a creation body: both dates present and any
      status one of the enumeration. The handler supplies user and
      campground itself. */
  predicate SchemaAccepts(body: Fields) {
    body.checkIn.Some? && body.checkOut.Some? && (body.status.None? || ParseStatus(body.status.value).Some?)
  }

  /** `addBooking`. The campground must exist (404), then a non-admin with
      three or more bookings is refused (400), then the schema must accept
      the body (500 otherwise). The booking is stored with the actor as owner
      and the route's campground, whatever the body says, and with the body's
      dates, status and creation time; breakfast at a campground without it
      is stored as `false` with a warning. */
  function AddBooking(s: Store, actor: Actor, campgroundId: Id, body: Fields, newId: Id, now: int): (r: Reply)
    requires newId !in s.bookings
    ensures campgroundId !in s.campgrounds ==> r == Reply(NotFound, s, None)
    ensures campgroundId in s.campgrounds && actor.role != Admin && |BookingsOf(s.bookings, actor.id)| >= MaxBookings ==>
              r == Reply(BadRequest, s, None)
    ensures r.status == OK <==>
              && campgroundId in s.campgrounds
              && (actor.role == Admin || |BookingsOf(s.bookings, actor.id)| < MaxBookings)
              && SchemaAccepts(body)
    ensures r.status == ServerError <==>
              && campgroundId in s.campgrounds
              && (actor.role == Admin || |BookingsOf(s.bookings, actor.id)| < MaxBookings)
              && !SchemaAccepts(body)
    ensures r.status != OK ==> r.store == s && r.warning.None?
    ensures r.status == OK ==>
              && newId in r.store.bookings
              && r.store == s.(bookings := s.bookings[newId := r.store.bookings[newId]])
    ensures r.status == OK ==>
              var b := r.store.bookings[newId];
              && b.user == actor.id && b.campground == campgroundId
              && b.checkIn == body.checkIn.value && b.checkOut == body.checkOut.value
              && DurationConsistent(b)
              && StatusName(b.status) == body.status.GetOr(StatusName(DefaultStatus))
              && b.createdAt == body.createdAt.GetOr(now)
              && (BreakfastRefused(s, body.breakfast, campgroundId) ==> b.breakfast == Some(false))
              && (!BreakfastRefused(s, body.breakfast, campgroundId) ==> b.breakfast == body.breakfast)
              && (r.warning.Some? <==> BreakfastRefused(s, body.breakfast, campgroundId))
              && (r.warning.Some? ==> r.warning.value == NoBreakfastWarning)
    ensures r.status in {OK, NotFound, BadRequest, ServerError}
  {
    if campgroundId !in s.campgrounds then Reply(NotFound, s, None)
    else if |BookingsOf(s.bookings, actor.id)| >= MaxBookings && actor.role != Admin then Reply(BadRequest, s, None)
    else
      var refused := BreakfastRefused(s, body.breakfast, campgroundId);
      var fields := body.(
        campground := Some(campgroundId),
        user := Some(actor.id),
        breakfast := if refused then Some(false) else body.breakfast);
      match Create(fields, now)
      case None => Reply(ServerError, s, None)
      case Some(b) =>
        Reply(OK, s.(bookings := s.bookings[newId := b]), if refused then Some(NoBreakfastWarning) else None)
  }

  /** The `message` of a successful `addBooking`: the warning replaces the
      success text when there is one. */
  function AddBookingMessage(r: Reply): (m: string)
    ensures r.warning.Some? ==> m == r.warning.value
    ensures r.warning.None? ==> m == CreatedMessage
  {
    r.warning.GetOr(CreatedMessage)
  }

  /** A successful `addBooking` answers with the no-breakfast warning exactly
      when breakfast was asked for at a campground without it, and with the
      success text otherwise. */
  lemma AddBookingMessageTellsRefusal(s: Store, actor: Actor, campgroundId: Id, body: Fields, newId: Id, now: int)
    requires newId !in s.bookings
    ensures var r := AddBooking(s, actor, campgroundId, body, newId, now);
            r.status == OK ==>
              && (AddBookingMessage(r) == NoBreakfastWarning <==> BreakfastRefused(s, body.breakfast, campgroundId))
              && (!BreakfastRefused(s, body.breakfast, campgroundId) ==> AddBookingMessage(r) == CreatedMessage)
  {
    assert |NoBreakfastWarning| != |CreatedMessage|;
  }

  /** `updateBooking`. A missing booking is 404; an actor who is neither its
      owner nor an admin gets 401; a status outside the enumeration answers
      500. Otherwise every field the body names replaces the stored one
      (through the duration hook); breakfast is refused, with a warning, when
      the booking's current campground is missing or serves none. */
  function UpdateBooking(s: Store, actor: Actor, id: Id, body: Fields): (r: Reply)
    ensures id !in s.bookings ==> r == Reply(NotFound, s, None)
    ensures id in s.bookings && !MayModify(actor, s.bookings[id].user) ==> r == Reply(Unauthorized, s, None)
    ensures r.status == OK <==>
              && id in s.bookings && MayModify(actor, s.bookings[id].user)
              && (body.status.None? || ParseStatus(body.status.value).Some?)
    ensures r.status == ServerError <==>
              && id in s.bookings && MayModify(actor, s.bookings[id].user)
              && body.status.Some? && ParseStatus(body.status.value).None?
    ensures r.status != OK ==> r.store == s && r.warning.None?
    ensures r.status == OK ==>
              && id in r.store.bookings
              && r.store == s.(bookings := s.bookings[id := r.store.bookings[id]])
    ensures r.status == OK ==>
              var prior := s.bookings[id];
              var b := r.store.bookings[id];
              && b.checkIn == body.checkIn.GetOr(prior.checkIn)
              && b.checkOut == body.checkOut.GetOr(prior.checkOut)
              && b.user == body.user.GetOr(prior.user)
              && b.campground == body.campground.GetOr(prior.campground)
              && b.createdAt == body.createdAt.GetOr(prior.createdAt)
              && (body.status.None? ==> b.status == prior.status)
              && (body.status.Some? ==> StatusName(b.status) == body.status.value)
              && (BreakfastRefused(s, body.breakfast, prior.campground) ==> b.breakfast == Some(false))
              && (!BreakfastRefused(s, body.breakfast, prior.campground) && body.breakfast.Some? ==>
                    b.breakfast == body.breakfast)
              && (body.breakfast.None? ==> b.breakfast == prior.breakfast)
              && (r.warning.Some? <==> BreakfastRefused(s, body.breakfast, prior.campground))
              && (r.warning.Some? ==> r.warning.value == NoBreakfastWarning)
              && (body.checkIn.Some? || body.checkOut.Some? ==>
                    b.duration == CalculateDuration(b.checkIn, b.checkOut))
              && (body.checkIn.None? && body.checkOut.None? ==> b.duration == body.duration.GetOr(prior.duration))
    ensures r.status in {OK, NotFound, Unauthorized, ServerError}
  {
    if id !in s.bookings then Reply(NotFound, s, None)
    else
      var stored := s.bookings[id];
      if !MayModify(actor, stored.user) then Reply(Unauthorized, s, None)
      else
        var refused := BreakfastRefused(s, body.breakfast, stored.campground);
        var fields := if refused then body.(breakfast := Some(false)) else body;
        match ApplyUpdate(stored, PreUpdate(fields, stored))
        case None => Reply(ServerError, s, None)
        case Some(b) =>
          Reply(OK, s.(bookings := s.bookings[id := b]), if refused then Some(NoBreakfastWarning) else None)
  }

  /** `deleteBooking`. A missing booking is 404; an actor who is neither its
      owner nor an admin gets 401; otherwise exactly that booking is removed. */
  function DeleteBooking(s: Store, actor: Actor, id: Id): (r: Reply)
    ensures id !in s.bookings ==> r == Reply(NotFound, s, None)
    ensures id in s.bookings && !MayModify(actor, s.bookings[id].user) ==> r == Reply(Unauthorized, s, None)
    ensures id in s.bookings && MayModify(actor, s.bookings[id].user) ==>
              && r.status == OK
              && r.store.bookings.Keys == s.bookings.Keys - {id}
              && (forall k :: k in r.store.bookings ==> r.store.bookings[k] == s.bookings[k])
              && r.store == s.(bookings := r.store.bookings)
  {
    if id !in s.bookings then Reply(NotFound, s, None)
    else if !MayModify(actor, s.bookings[id].user) then Reply(Unauthorized, s, None)
    else Reply(OK, s.(bookings := s.bookings - {id}), None)
  }
}

=== FILE: campgrounds.dfy ===
/** The campground controller: listing, reading, updating and deleting
    campgrounds. The admin-only routes check the role before these handlers
    run, and the handlers themselves never read the actor. */
module Campgrounds {
  import opened Common
  import opened Operators
  import opened Pagination
  import opened ListQuery
  import opened Store

  /** Newest first when the query names no sort. */
  const DefaultSort := "-createdAt"

  /** `getCampgrounds`: every campground is in scope; filter, projection,
      sort and window come from the query string, with page size 25 and an
      operator rewrite that leaves `in` alone. `total` is the number of all
      campgrounds. The listing fails with 400 when `select` or `sort` comes
      with brackets, when the skip is negative, and when the database refuses
      the plan (`dbAccepts`: casting the filter's values, accepting the
      projection and sort). */
  function GetCampgrounds(s: Store, query: map<string, string>, dbAccepts: Plan -> bool): (r: ListReply)
    ensures r.visible == s.campgrounds.Keys
    ensures r.plan == MakePlan(query, CampgroundOperators, CampgroundPageSize, DefaultSort)
    ensures r.status == OK <==> r.plan.window.startIndex >= 0 && !NestedListParam(query) && dbAccepts(r.plan)
    ensures r.status != OK ==> r.status == BadRequest
    ensures r.status == OK ==> r.pagination == Describe(r.plan.window, |s.campgrounds|)
  {
    var plan := MakePlan(query, CampgroundOperators, CampgroundPageSize, DefaultSort);
    if plan.window.startIndex < 0 || NestedListParam(query) || !dbAccepts(plan) then
      ListReply(BadRequest, s.campgrounds.Keys, plan, Descriptor(None, None))
    else ListReply(OK, s.campgrounds.Keys, plan, Describe(plan.window, |s.campgrounds|))
  }

  /** Without `sort`, `select`, `page` or `limit`, bracketed or not, the
      listing is newest first, unprojected, and starts at the first row with
      at most 25 rows; it then fails only when the database refuses it. */
  lemma PlainListingDefaults(s: Store, query: map<string, string>, dbAccepts: Plan -> bool)
    requires forall k :: k in query ==> FieldOf(k) !in ReservedKeys
    ensures var r := GetCampgrounds(s, query, dbAccepts);
            && (r.status == OK <==> dbAccepts(r.plan))
            && r.plan.sort == DefaultSort && r.plan.select.None?
            && r.plan.window == Window(1, CampgroundPageSize, 0, CampgroundPageSize)
            && (r.status == OK ==> r.pagination.prev.None?)
            && (r.status == OK ==> (r.pagination.next.Some? <==> CampgroundPageSize < |s.campgrounds|))
  {
    PlainQueryDefaults(query, CampgroundOperators, CampgroundPageSize, DefaultSort);
  }

  /** `getCampground`: a missing id answers 400, not 404. */
  function GetCampground(s: Store, id: Id): (r: (int, Option<Campground>))
    ensures id in s.campgrounds ==> r == (OK, Some(s.campgrounds[id]))
    ensures id !in s.campgrounds ==> r == (BadRequest, None)
  {
    if id in s.campgrounds then (OK, Some(s.campgrounds[id])) else (BadRequest, None)
  }

  /** The campground fields an update body may carry. */
  datatype CampgroundFields = CampgroundFields(
    name: Option<string>,
    province: Option<string>,
    description: Option<string>,
    tel: Option<string>,
    breakfast: Option<bool>)

  function ApplyCampgroundFields(c: Campground, f: CampgroundFields): (r: Campground)
    ensures r.createdAt == c.createdAt
    ensures r.name == f.name.GetOr(c.name) && r.province == f.province.GetOr(c.province)
    ensures r.description == f.description.GetOr(c.description) && r.tel == f.tel.GetOr(c.tel)
    ensures r.breakfast == f.breakfast.GetOr(c.breakfast)
  {
    c.(name := f.name.GetOr(c.name),
       province := f.province.GetOr(c.province),
       description := f.description.GetOr(c.description),
       tel := f.tel.GetOr(c.tel),
       breakfast := f.breakfast.GetOr(c.breakfast))
  }

  /** `updateCampground`: a missing id answers 400, as does an update the
      schema validators refuse (`accepts` stands for them). Otherwise only
      that campground changes, and its bookings and reviews stay. */
  function UpdateCampground(s: Store, id: Id, f: CampgroundFields, accepts: Campground -> bool): (r: Reply)
    ensures id !in s.campgrounds ==> r == Reply(BadRequest, s, None)
    ensures r.status != OK ==> r.status == BadRequest && r.store == s
    ensures r.status == OK <==> id in s.campgrounds && accepts(ApplyCampgroundFields(s.campgrounds[id], f))
    ensures r.status == OK ==>
              r.store == s.(campgrounds := s.campgrounds[id := ApplyCampgroundFields(s.campgrounds[id], f)])
    ensures r.warning.None?
  {
    if id !in s.campgrounds then Reply(BadRequest, s, None)
    else
      var updated := ApplyCampgroundFields(s.campgrounds[id], f);
      if !accepts(updated) then Reply(BadRequest, s, None)
      else Reply(OK, s.(campgrounds := s.campgrounds[id := updated]), None)
  }

  /** After a successful update, reading the campground back gives the
      updated record; after a refused one, the record as it was. */
  lemma UpdateThenGet(s: Store, id: Id, f: CampgroundFields, accepts: Campground -> bool)
    ensures var r := UpdateCampground(s, id, f, accepts);
            && (r.status == OK ==> GetCampground(r.store, id) == (OK, Some(ApplyCampgroundFields(s.campgrounds[id], f))))
            && (r.status != OK ==> GetCampground(r.store, id) == GetCampground(s, id))
  {
  }

  /** Sending the same update twice changes nothing the second time. */
  lemma UpdateCampgroundIdempotent(s: Store, id: Id, f: CampgroundFields, accepts: Campground -> bool)
    ensures var once := UpdateCampground(s, id, f, accepts).store;
            UpdateCampground(once, id, f, accepts).store == once
  {
    var r := UpdateCampground(s, id, f, accepts);
    if r.status == OK {
      var once := r.store;
      assert ApplyCampgroundFields(once.campgrounds[id], f) == once.campgrounds[id];
      assert once.campgrounds[id := once.campgrounds[id]] == once.campgrounds;
    }
  }

  /** `deleteCampground`. A missing id is 404 and nothing is deleted.
      Otherwise the campground's bookings are removed and then the
      campground; other campgrounds' bookings, every user and every review,
      this campground's reviews included, stay as they were. */
  function DeleteCampground(s: Store, id: Id): (r: Reply)
    ensures id !in s.campgrounds ==> r == Reply(NotFound, s, None)
    ensures id in s.campgrounds ==>
              && r.status == OK
              && r.store.campgrounds.Keys == s.campgrounds.Keys - {id}
              && (forall c :: c in r.store.campgrounds ==> r.store.campgrounds[c] == s.campgrounds[c])
              && (forall b :: b in r.store.bookings <==> b in s.bookings && s.bookings[b].campground != id)
              && (forall b :: b in r.store.bookings ==> r.store.bookings[b] == s.bookings[b])
              && r.store.users == s.users
              && r.store.reviews == s.reviews
  {
    if id !in s.campgrounds then Reply(NotFound, s, None)
    else
      var afterBookings := s.(bookings := DropBookingsAt(s.bookings, id));
      Reply(OK, afterBookings.(campgrounds := afterBookings.campgrounds - {id}), None)
  }
}

=== FILE: common.dfy ===
/** Shared vocabulary of the campground booking backend: optional values,
    record identifiers, the authenticated actor and the HTTP status codes
    the controllers answer with. */
module Common {

  /** A value that may be absent, as a request-body field or a lookup result. */
  datatype Option<+T> = None | Some(value: T) {

    /** The present value, or `default` when absent (JavaScript's `x || default`
        for values that are never falsy). */
    function GetOr(default: T): T {
      match this
      case Some(v) => v
      case None => default
    }
  }

  /** Database identifiers (MongoDB object ids). Ascending order stands in for
      the collection's natural order where the database picks "the first" match. */
  type Id = nat

  /** The two roles the `authorize` middleware admits. */
  datatype Role = UserRole | Admin

  /** The identity the authentication middleware attaches to a request. */
  datatype Actor = Actor(id: Id, role: Role)

  /** A string request field that JavaScript treats as truthy: present and non-empty. */
  predicate Truthy(s: Option<string>) {
    s.Some? && s.value != ""
  }

  const OK := 200
  const Created := 201
  const BadRequest := 400
  const Unauthorized := 401
  const Forbidden := 403
  const NotFound := 404
  const ServerError := 500
}

/** The ownership policy shared by the booking, review and user mutation
    handlers: an administrator may modify anything, anyone else only what
    they own. */
module Policy {
  import opened Common

  predicate MayModify(actor: Actor, owner: Id) {
    actor.role == Admin || actor.id == owner
  }
}

=== FILE: invariants.dfy ===
/** Properties that tie the handlers together: which database invariants each
    keeps, which one it can break, and how creation and deletion undo each
    other. */
module Invariants {
  import opened Common
  import opened Policy
  import opened BookingModel
  import opened Store
  import Bookings
  import Auth
  import Campgrounds
  import Reviews
  import ReviewModel

  /** Every booking names an existing user and an existing campground. */
  predicate BookingRefsIntact(s: Store) {
    forall id :: id in s.bookings ==> s.bookings[id].user in s.users && s.bookings[id].campground in s.campgrounds
  }

  /** Deleting a user takes that user's bookings along, so no booking is left
      pointing at a missing user. */
  lemma DeleteUserKeepsRefs(s: Store, actor: Actor, target: Id)
    requires BookingRefsIntact(s)
    ensures BookingRefsIntact(Auth.DeleteUser(s, actor, target).store)
  {
  }

  /** Deleting a campground takes its bookings along, so no booking is left
      pointing at a missing campground. */
  lemma DeleteCampgroundKeepsRefs(s: Store, id: Id)
    requires BookingRefsIntact(s)
    ensures BookingRefsIntact(Campgrounds.DeleteCampground(s, id).store)
  {
  }

  /** A new booking points at the route's campground, which was found, and at
      the logged-in user, who exists. */
  lemma AddBookingKeepsRefs(s: Store, actor: Actor, campgroundId: Id, body: Fields, newId: Id, now: int)
    requires newId !in s.bookings
    requires actor.id in s.users
    requires BookingRefsIntact(s)
    ensures BookingRefsIntact(Bookings.AddBooking(s, actor, campgroundId, body, newId, now).store)
  {
  }

  /** The update body may name another campground, and nothing checks that it
      exists: a booking can be moved to a campground that is not there. */
  lemma UpdateBookingCanBreakRefs(s: Store, actor: Actor, id: Id, elsewhere: Id)
    requires BookingRefsIntact(s)
    requires id in s.bookings && MayModify(actor, s.bookings[id].user)
    requires elsewhere !in s.campgrounds
    ensures var body := EmptyBody.(campground := Some(elsewhere));
            var r := Bookings.UpdateBooking(s, actor, id, body);
            r.status == OK && !BookingRefsIntact(r.store)
  {
    var body := EmptyBody.(campground := Some(elsewhere));
    var r := Bookings.UpdateBooking(s, actor, id, body);
    assert r.store.bookings[id].campground == elsewhere;
  }

  /** The cap is checked on creation only: an update body may hand a booking
      to a user-role account that already holds three, which then holds four. */
  lemma UpdateBookingCanBreakCap(s: Store, actor: Actor, id: Id, u: Id)
    requires u in s.users && s.users[u].role == UserRole
    requires |BookingsOf(s.bookings, u)| >= Bookings.MaxBookings
    requires id in s.bookings && s.bookings[id].user != u && MayModify(actor, s.bookings[id].user)
    ensures var r := Bookings.UpdateBooking(s, actor, id, EmptyBody.(user := Some(u)));
            r.status == OK && !WithinCap(r.store, Bookings.MaxBookings)
  {
    var r := Bookings.UpdateBooking(s, actor, id, EmptyBody.(user := Some(u)));
    var before := BookingsOf(s.bookings, u);
    var after := BookingsOf(r.store.bookings, u);
    assert before + {id} <= after;
    assert id !in before;
    SubsetAtMost(before + {id}, after);
  }

  lemma {:induction false} SubsetAtMost(a: set<Id>, b: set<Id>)
    requires a <= b
    ensures |a| <= |b|
    decreases |b|
  {
    if a != b {
      var x :| x in b && x !in a;
      SubsetAtMost(a, b - {x});
    }
  }

  /** Reviews are not part of the campground cascade: a review of a deleted
      campground stays and points at nothing. */
  lemma DeleteCampgroundLeavesReviews(s: Store, id: Id, review: Id)
    requires id in s.campgrounds
    requires review in s.reviews && s.reviews[review].campground == id
    ensures var after := Campgrounds.DeleteCampground(s, id).store;
            review in after.reviews && after.reviews[review].campground !in after.campgrounds
  {
  }

  /** Creating a booking keeps every stored booking's duration in step with
      its dates. */
  lemma AddBookingKeepsValid(s: Store, actor: Actor, campgroundId: Id, body: Fields, newId: Id, now: int)
    requires newId !in s.bookings
    requires ValidStore(s)
    ensures ValidStore(Bookings.AddBooking(s, actor, campgroundId, body, newId, now).store)
  {
    var r := Bookings.AddBooking(s, actor, campgroundId, body, newId, now);
    if r.status == OK {
      forall id | id in r.store.bookings
        ensures DurationConsistent(r.store.bookings[id])
      {
        if id != newId {
          assert r.store.bookings[id] == s.bookings[id];
        }
      }
    }
  }

  /** An update keeps the durations in step with the dates unless its body
      writes a duration and names neither date. */
  lemma UpdateBookingKeepsValid(s: Store, actor: Actor, id: Id, body: Fields)
    requires ValidStore(s)
    requires body.duration.None? || body.checkIn.Some? || body.checkOut.Some?
    ensures ValidStore(Bookings.UpdateBooking(s, actor, id, body).store)
  {
    var r := Bookings.UpdateBooking(s, actor, id, body);
    if r.status == OK {
      var stored := s.bookings[id];
      var fields := if Bookings.BreakfastRefused(s, body.breakfast, stored.campground) then body.(breakfast := Some(false)) else body;
      UpdateKeepsDurationConsistent(stored, fields);
      forall k | k in r.store.bookings
        ensures DurationConsistent(r.store.bookings[k])
      {
        if k != id {
          assert r.store.bookings[k] == s.bookings[k];
        }
      }
    }
  }

  /** Adding a review keeps every stored review within the schema's bounds. */
  lemma AddReviewKeepsValid(s: Store, actor: Actor, campgroundId: Id, body: ReviewModel.Fields, newId: Id, now: int)
    requires newId !in s.reviews
    requires ValidStore(s)
    ensures ValidStore(Reviews.AddReview(s, actor, campgroundId, body, newId, now).store)
  {
    var a := Reviews.AddReview(s, actor, campgroundId, body, newId, now);
    if a.status == Created {
      forall k | k in a.store.reviews
        ensures ReviewModel.ValidReview(a.store.reviews[k])
      {
        if k != newId {
          assert a.store.reviews[k] == s.reviews[k];
        }
      }
    }
  }

  /** Updating a review keeps every stored review within the schema's bounds. */
  lemma UpdateReviewKeepsValid(s: Store, actor: Actor, id: Id, body: ReviewModel.Fields)
    requires ValidStore(s)
    ensures ValidStore(Reviews.UpdateReview(s, actor, id, body).store)
  {
    var u := Reviews.UpdateReview(s, actor, id, body);
    if u.status == OK {
      forall k | k in u.store.reviews
        ensures ReviewModel.ValidReview(u.store.reviews[k])
      {
        if k != id {
          assert u.store.reviews[k] == s.reviews[k];
        }
      }
    }
  }

  /** The cap: when no user-role account holds more than three bookings,
      none does after a booking is added. The actor's role is the stored
      one, as the authentication middleware reads it from the database. */
  lemma AddBookingKeepsCap(s: Store, actor: Actor, campgroundId: Id, body: Fields, newId: Id, now: int)
    requires newId !in s.bookings
    requires actor.id in s.users ==> s.users[actor.id].role == actor.role
    requires WithinCap(s, Bookings.MaxBookings)
    ensures WithinCap(Bookings.AddBooking(s, actor, campgroundId, body, newId, now).store, Bookings.MaxBookings)
  {
    var r := Bookings.AddBooking(s, actor, campgroundId, body, newId, now);
    if r.status == OK {
      forall u | u in r.store.users && r.store.users[u].role == UserRole
        ensures |BookingsOf(r.store.bookings, u)| <= Bookings.MaxBookings
      {
        BookingsOfInsert(s.bookings, newId, r.store.bookings[newId], u);
      }
    }
  }

  /** An admin is never refused for holding too many bookings. */
  lemma AdminNeverCapped(s: Store, actor: Actor, campgroundId: Id, body: Fields, newId: Id, now: int)
    requires newId !in s.bookings
    requires actor.role == Admin
    ensures Bookings.AddBooking(s, actor, campgroundId, body, newId, now).status != BadRequest
  {
  }

  /** Deleting the booking just created, as its owner, gives back the
      database as it was. */
  lemma AddThenDeleteBooking(s: Store, actor: Actor, campgroundId: Id, body: Fields, newId: Id, now: int)
    requires newId !in s.bookings
    ensures var added := Bookings.AddBooking(s, actor, campgroundId, body, newId, now);
            added.status == OK ==> Bookings.DeleteBooking(added.store, actor, newId).store == s
  {
    var added := Bookings.AddBooking(s, actor, campgroundId, body, newId, now);
    if added.status == OK {
      assert added.store.bookings - {newId} == s.bookings;
    }
  }

  /** Deleting the review just created, as its author, gives back the
      database as it was. */
  lemma AddThenDeleteReview(s: Store, actor: Actor, campgroundId: Id, body: ReviewModel.Fields, newId: Id, now: int)
    requires newId !in s.reviews
    ensures var added := Reviews.AddReview(s, actor, campgroundId, body, newId, now);
            added.status == Created ==> Reviews.DeleteReview(added.store, actor, newId).store == s
  {
    var added := Reviews.AddReview(s, actor, campgroundId, body, newId, now);
    if added.status == Created {
      assert added.store.reviews - {newId} == s.reviews;
    }
  }

  /** A second delete of the same booking finds nothing. */
  lemma DeleteBookingTwice(s: Store, actor: Actor, id: Id)
    ensures var once := Bookings.DeleteBooking(s, actor, id);
            once.status == OK ==> Bookings.DeleteBooking(once.store, actor, id).status == NotFound
  {
  }

  /** The ownership rule is the same for every guarded handler: the
      refusal comes after the not-found check and exactly when the actor is
      neither the owner nor an admin. */
  lemma OwnershipRefusals(s: Store, actor: Actor, id: Id)
    ensures Bookings.DeleteBooking(s, actor, id).status == Unauthorized <==>
              id in s.bookings && actor.role != Admin && actor.id != s.bookings[id].user
    ensures Reviews.DeleteReview(s, actor, id).status == Forbidden <==>
              id in s.reviews && actor.role != Admin && actor.id != s.reviews[id].user
    ensures Auth.DeleteUser(s, actor, id).status == Forbidden <==>
              id in s.users && actor.role != Admin && actor.id != id
  {
  }
}

=== FILE: list_query.dfy ===
/** The list-query steps the booking and campground listings share: filter,
    projection, sort and window, read from the query-string parameters. */
module ListQuery {
  import opened Common
  import opened Text
  import opened Operators
  import opened Pagination

  /** What a listing hands to the database: the rewritten filter, the
      projection and sort strings, and the page window. */
  datatype Plan = Plan(filter: map<string, string>, select: Option<string>, sort: string, window: Window)

  function Param(query: map<string, string>, key: string): Option<string> {
    if key in query then Some(query[key]) else None
  }

  /** `select`: when given, its comma list becomes a space list. */
  function Projection(query: map<string, string>): (r: Option<string>)
    ensures r.None? <==> !Truthy(Param(query, "select"))
    ensures r.Some? ==>
              && |r.value| == |query["select"]|
              && forall i :: 0 <= i < |r.value| ==>
                   r.value[i] == (if query["select"][i] == ',' then ' ' else query["select"][i])
  {
    var p := Param(query, "select");
    if Truthy(p) then Some(CommaListToSpaces(p.value)) else None
  }

  /** `sort`: when given, its comma list becomes a space list; otherwise the
      listing's default sort key. */
  function SortKeys(query: map<string, string>, default: string): (r: string)
    ensures !Truthy(Param(query, "sort")) ==> r == default
    ensures Truthy(Param(query, "sort")) ==>
              && |r| == |query["sort"]|
              && forall i :: 0 <= i < |r| ==> r[i] == (if query["sort"][i] == ',' then ' ' else query["sort"][i])
  {
    var p := Param(query, "sort");
    if Truthy(p) then CommaListToSpaces(p.value) else default
  }

  /** Whether `select` or `sort` comes with brackets (`select[a]=x`): the
      query parser then hands the handler an object instead of a string, and
      its `split` call throws. */
  predicate NestedListParam(query: map<string, string>) {
    exists k :: k in query && FieldOf(k) != k && (FieldOf(k) == "select" || FieldOf(k) == "sort")
  }

  /** Whether some key of the filter puts a condition on `field`. */
  predicate NamesField(filter: map<string, string>, field: string) {
    exists k :: k in filter && FieldOf(k) == field
  }

  /** The plan of a listing with operator set `ops`, default page size
      `pageSize` and default sort `defaultSort`. */
  function MakePlan(query: map<string, string>, ops: set<string>, pageSize: int, defaultSort: string): (p: Plan)
    requires pageSize > 0
    ensures forall k :: k in p.filter ==> k !in ReservedKeys
    ensures forall k :: k in query && FieldOf(k) !in ReservedKeys ==>
              Rewrite(k, ops) in p.filter && p.filter[Rewrite(k, ops)] == Rewrite(query[k], ops)
    ensures forall k :: k in query && FieldOf(k) in ReservedKeys ==> Rewrite(k, ops) !in p.filter
    ensures forall k :: k in p.filter ==>
              exists q :: q in query && FieldOf(q) !in ReservedKeys && Rewrite(q, ops) == k
    ensures p.select == Projection(query) && p.sort == SortKeys(query, defaultSort)
    ensures p.window == MakeWindow(Param(query, "page"), Param(query, "limit"), pageSize)
  {
    Plan(FilterOf(query, ops), Projection(query), SortKeys(query, defaultSort),
         MakeWindow(Param(query, "page"), Param(query, "limit"), pageSize))
  }

  /** A query naming none of the reserved fields, bracketed or not, gets the
      default sort, no projection and the first page at the page size, and
      does not make the handler throw. */
  lemma PlainQueryDefaults(query: map<string, string>, ops: set<string>, pageSize: int, defaultSort: string)
    requires pageSize > 0
    requires forall k :: k in query ==> FieldOf(k) !in ReservedKeys
    ensures var p := MakePlan(query, ops, pageSize, defaultSort);
            && p.sort == defaultSort && p.select.None?
            && p.window == Window(1, pageSize, 0, pageSize)
    ensures !NestedListParam(query)
  {
    NoReservedKeyPresent(query);
    NotNested(query);
  }

  lemma NoReservedKeyPresent(query: map<string, string>)
    requires forall k :: k in query ==> FieldOf(k) !in ReservedKeys
    ensures "sort" !in query && "select" !in query && "page" !in query && "limit" !in query
  {
    ReservedKeysArePlain();
  }

  lemma NotNested(query: map<string, string>)
    requires forall k :: k in query ==> FieldOf(k) !in ReservedKeys
    ensures !NestedListParam(query)
  {
    assert "select" in ReservedKeys && "sort" in ReservedKeys;
  }

  /** The reply of a listing: status, the ids the scope admits, the plan and
      the pagination descriptor. */
  datatype ListReply = ListReply(status: int, visible: set<Id>, plan: Plan, pagination: Descriptor)
}

=== FILE: operators.dfy ===
/** The textual operator rewrite of the list handlers.

    The handlers serialize the filter part of the query string to JSON and
    replace every match of `\b(gt|gte|lt|lte|in)\b` (bookings) or
    `\b(gt|gte|lt|lte)\b` (campgrounds) by the same text with a `$` in front.
    A match starts and ends at a word boundary and consists of word characters
    only, so it is exactly a maximal run of word characters that spells one of
    the operators; `Rewrite` is defined in those terms. Quotes, colons, braces
    and brackets are not word characters, so rewriting the JSON text rewrites
    every key and every value on its own, which is what `RewriteFilter` does. */
module Operators {
  import opened Common
  import opened Text

  const BookingOperators: set<string> := {"gt", "gte", "lt", "lte", "in"}
  const CampgroundOperators: set<string> := {"gt", "gte", "lt", "lte"}

  /** The query-string keys that steer the listing and are never part of the filter. */
  const ReservedKeys: set<string> := {"select", "sort", "page", "limit"}

  /** Length of the run of word characters at the start of `s`. */
  function WordRunLen(s: string): (n: nat)
    ensures n <= |s|
    ensures forall i :: 0 <= i < n ==> IsWordChar(s[i])
    ensures n < |s| ==> !IsWordChar(s[n])
    ensures |s| > 0 && IsWordChar(s[0]) ==> n > 0
    decreases |s|
  {
    if |s| == 0 || !IsWordChar(s[0]) then 0 else 1 + WordRunLen(s[1..])
  }

  /** `s` starts with a whole word that is one of `ops`. */
  predicate OperatorAtStart(s: string, ops: set<string>) {
    WordRunLen(s) > 0 && s[..WordRunLen(s)] in ops
  }

  /** The global regular-expression replacement: every maximal word run that
      is one of `ops` gets a `$` in front; nothing else changes. */
  function Rewrite(s: string, ops: set<string>): string
    decreases |s|
  {
    if |s| == 0 then ""
    else if !IsWordChar(s[0]) then [s[0]] + Rewrite(s[1..], ops)
    else
      var n := WordRunLen(s);
      (if OperatorAtStart(s, ops) then "$" + s[..n] else s[..n]) + Rewrite(s[n..], ops)
  }

  /** The inverse of `Rewrite`: drops the `$` in front of every operator word. */
  function Unrewrite(t: string, ops: set<string>): string
    decreases |t|
  {
    if |t| == 0 then ""
    else if IsWordChar(t[0]) then
      var n := WordRunLen(t);
      t[..n] + Unrewrite(t[n..], ops)
    else if t[0] == '$' && OperatorAtStart(t[1..], ops) then
      var n := WordRunLen(t[1..]);
      t[1..1 + n] + Unrewrite(t[1 + n..], ops)
    else [t[0]] + Unrewrite(t[1..], ops)
  }

  lemma {:induction false} WordRunLenAppend(x: string, y: string)
    requires WordRunLen(x) < |x| || |y| == 0 || !IsWordChar(y[0])
    ensures WordRunLen(x + y) == WordRunLen(x)
    decreases |x|
  {
    if |x| == 0 {
      assert x + y == y;
    } else if IsWordChar(x[0]) {
      assert (x + y)[1..] == x[1..] + y;
      WordRunLenAppend(x[1..], y);
    }
  }

  /** A rewritten string starts with a word character exactly when the input
      does, and with the same character when it does not. */
  lemma RewriteHead(s: string, ops: set<string>)
    requires |s| > 0 && !IsWordChar(s[0])
    ensures |Rewrite(s, ops)| > 0 && Rewrite(s, ops)[0] == s[0]
  {
  }

  /** After a word run the rewrite continues at a non-word character (or ends). */
  lemma WordRunOfRewrite(w: string, s: string, ops: set<string>)
    requires forall i :: 0 <= i < |w| ==> IsWordChar(w[i])
    requires |s| == 0 || !IsWordChar(s[0])
    ensures WordRunLen(w + Rewrite(s, ops)) == |w|
    ensures (w + Rewrite(s, ops))[..|w|] == w
  {
    var r := Rewrite(s, ops);
    if |s| > 0 {
      RewriteHead(s, ops);
    }
    WordRunLenAppend(w, r);
    assert WordRunLen(w) == |w| by {
      WordRunLenAppend(w, "");
      assert w + "" == w;
    }
  }

  /** The rewrite never starts with a bare operator word. */
  lemma NoBareOperatorAtStart(s: string, ops: set<string>)
    ensures !OperatorAtStart(Rewrite(s, ops), ops)
  {
    if |s| > 0 {
      if !IsWordChar(s[0]) {
        RewriteHead(s, ops);
      } else if !OperatorAtStart(s, ops) {
        var n := WordRunLen(s);
        var w := s[..n];
        WordRunOfRewrite(w, s[n..], ops);
      }
    }
  }

  lemma UnrewriteNonWordHead(c: char, r: string, ops: set<string>)
    requires !IsWordChar(c)
    requires c == '$' ==> !OperatorAtStart(r, ops)
    ensures Unrewrite([c] + r, ops) == [c] + Unrewrite(r, ops)
  {
    var t := [c] + r;
    assert t[1..] == r;
  }

  lemma UnrewriteWordHead(w: string, r: string, ops: set<string>)
    requires |w| > 0 && forall i :: 0 <= i < |w| ==> IsWordChar(w[i])
    requires |r| == 0 || !IsWordChar(r[0])
    ensures Unrewrite(w + r, ops) == w + Unrewrite(r, ops)
  {
    var t := w + r;
    WordRunLenAppend(w, r);
    WordRunLenAppend(w, "");
    assert w + "" == w;
    assert t[..|w|] == w && t[|w|..] == r;
  }

  lemma UnrewriteDollarHead(w: string, r: string, ops: set<string>)
    requires |w| > 0 && forall i :: 0 <= i < |w| ==> IsWordChar(w[i])
    requires w in ops
    requires |r| == 0 || !IsWordChar(r[0])
    ensures Unrewrite("$" + w + r, ops) == w + Unrewrite(r, ops)
  {
    var t := "$" + w + r;
    DollarSlices(w, r);
    WholeWordRun(w, r);
    UnrewriteDollarStep(t, ops);
  }

  lemma DollarSlices(w: string, r: string)
    ensures ("$" + w + r)[0] == '$'
    ensures ("$" + w + r)[1..] == w + r
    ensures ("$" + w + r)[1..1 + |w|] == w
    ensures ("$" + w + r)[1 + |w|..] == r
  {}

  /** A whole word followed by a non-word character is the run at the start. */
  lemma WholeWordRun(w: string, r: string)
    requires |w| > 0 && forall i :: 0 <= i < |w| ==> IsWordChar(w[i])
    requires |r| == 0 || !IsWordChar(r[0])
    ensures WordRunLen(w + r) == |w| && (w + r)[..|w|] == w
  {
    WordRunLenAppend(w, r);
    assert (w + r)[..|w|] == w;
  }

  /** One step of `Unrewrite` over a `$` in front of an operator word. */
  lemma UnrewriteDollarStep(t: string, ops: set<string>)
    requires |t| > 0 && t[0] == '$' && OperatorAtStart(t[1..], ops)
    ensures var n := WordRunLen(t[1..]);
            Unrewrite(t, ops) == t[1..1 + n] + Unrewrite(t[1 + n..], ops)
  {}

  /** `Unrewrite` undoes `Rewrite`: the rewrite inserts `$` signs and keeps
      every character of the input, in order. */
  lemma {:induction false} UnrewriteRewrite(s: string, ops: set<string>)
    ensures Unrewrite(Rewrite(s, ops), ops) == s
    decreases |s|
  {
    if |s| > 0 {
      if !IsWordChar(s[0]) {
        UnrewriteRewrite(s[1..], ops);
        NoBareOperatorAtStart(s[1..], ops);
        UnrewriteNonWordHead(s[0], Rewrite(s[1..], ops), ops);
        assert s == [s[0]] + s[1..];
      } else {
        var n := WordRunLen(s);
        var w := s[..n];
        var rest := s[n..];
        UnrewriteRewrite(rest, ops);
        if |rest| > 0 {
          RewriteHead(rest, ops);
        }
        assert s == w + rest;
        if OperatorAtStart(s, ops) {
          UnrewriteDollarHead(w, Rewrite(rest, ops), ops);
        } else {
          UnrewriteWordHead(w, Rewrite(rest, ops), ops);
        }
      }
    }
  }

  /** Two inputs with the same rewrite are equal. */
  lemma RewriteInjective(a: string, b: string, ops: set<string>)
    requires Rewrite(a, ops) == Rewrite(b, ops)
    ensures a == b
  {
    UnrewriteRewrite(a, ops);
    UnrewriteRewrite(b, ops);
  }

  /** A single whole word is prefixed with `$` exactly when it is an operator. */
  lemma RewriteWord(w: string, ops: set<string>)
    requires |w| > 0 && forall i :: 0 <= i < |w| ==> IsWordChar(w[i])
    ensures Rewrite(w, ops) == if w in ops then "$" + w else w
  {
    WordRunOfRewrite(w, "", ops);
    assert w + Rewrite("", ops) == w;
    assert w[..|w|] == w && w[|w|..] == "";
  }

  /** A word made only of word characters is its own inverse rewrite. */
  lemma UnrewriteWord(w: string, ops: set<string>)
    requires |w| > 0 && forall i :: 0 <= i < |w| ==> IsWordChar(w[i])
    ensures Unrewrite(w, ops) == w
  {
    WordRunLenAppend(w, "");
    assert w + "" == w;
    assert w[..|w|] == w && w[|w|..] == "";
  }

  /** The rewrite works word by word: a non-word character splits it. Together
      with `RewriteWord` this determines the rewrite of every string. */
  lemma {:induction false} RewriteSeparator(a: string, c: char, b: string, ops: set<string>)
    requires !IsWordChar(c)
    ensures Rewrite(a + [c] + b, ops) == Rewrite(a, ops) + [c] + Rewrite(b, ops)
    decreases |a|
  {
    if |a| == 0 {
      assert a + [c] + b == [c] + b;
      assert (a + [c] + b)[1..] == b;
    } else if !IsWordChar(a[0]) {
      RewriteSeparator(a[1..], c, b, ops);
      SeparatorAfterNonWord(a, c, b, ops);
    } else {
      RewriteSeparator(a[WordRunLen(a)..], c, b, ops);
      SeparatorAfterWord(a, c, b, ops);
    }
  }

  lemma Regroup(h: string, x: string, c: char, y: string)
    ensures h + (x + [c] + y) == (h + x) + [c] + y
  {
  }

  /** How `a + [c] + b` splits at a position inside `a`. */
  lemma SeparatedParts(a: string, c: char, b: string, n: nat)
    requires 0 < n <= |a|
    ensures (a + [c] + b)[0] == a[0]
    ensures (a + [c] + b)[..n] == a[..n]
    ensures (a + [c] + b)[n..] == a[n..] + [c] + b
  {
  }

  /** The step of `RewriteSeparator` past a leading non-word character. */
  lemma SeparatorAfterNonWord(a: string, c: char, b: string, ops: set<string>)
    requires |a| > 0 && !IsWordChar(a[0])
    requires Rewrite(a[1..] + [c] + b, ops) == Rewrite(a[1..], ops) + [c] + Rewrite(b, ops)
    ensures Rewrite(a + [c] + b, ops) == Rewrite(a, ops) + [c] + Rewrite(b, ops)
  {
    SeparatedParts(a, c, b, 1);
    Regroup([a[0]], Rewrite(a[1..], ops), c, Rewrite(b, ops));
  }

  /** The step of `RewriteSeparator` past a leading word run. */
  lemma SeparatorAfterWord(a: string, c: char, b: string, ops: set<string>)
    requires !IsWordChar(c)
    requires |a| > 0 && IsWordChar(a[0])
    requires Rewrite(a[WordRunLen(a)..] + [c] + b, ops) == Rewrite(a[WordRunLen(a)..], ops) + [c] + Rewrite(b, ops)
    ensures Rewrite(a + [c] + b, ops) == Rewrite(a, ops) + [c] + Rewrite(b, ops)
  {
    var n := WordRunLen(a);
    WordRunLenAppend(a, [c] + b);
    assert a + ([c] + b) == a + [c] + b;
    SeparatedParts(a, c, b, n);
    var head := if OperatorAtStart(a, ops) then "$" + a[..n] else a[..n];
    Regroup(head, Rewrite(a[n..], ops), c, Rewrite(b, ops));
  }

  /** A value equal to an operator is rewritten too, not only keys: the filter
      `status=in` reaches the database as `status=$in` from the booking
      listing. */
  lemma ValueEqualToOperatorIsRewritten()
    ensures Rewrite("in", BookingOperators) == "$in"
  {
    RewriteWord("in", BookingOperators);
  }

  /** The campground listing's operators do not include `in`. */
  lemma InKeptForCampgrounds()
    ensures Rewrite("in", CampgroundOperators) == "in"
  {
    RewriteWord("in", CampgroundOperators);
  }

  /** A longer word that contains an operator is left alone. */
  lemma LongerWordKept()
    ensures Rewrite("gtex", BookingOperators) == "gtex"
  {
    RewriteWord("gtex", BookingOperators);
  }

  /** The shapes of `field[op]` the bracket proof moves between. */
  lemma BracketShapes(field: string, op: string)
    ensures op + [']'] + "" == op + [']']
    ensures field + ['['] + op + [']'] == field + ['['] + (op + [']'])
    ensures field + ['['] + ("$" + op + [']']) == field + ['['] + ("$" + op) + [']']
  {
  }

  /** A word between brackets, as in the query key `price[gte]`, gains a `$`
      exactly when it is an operator; the field name in front of it is kept. */
  lemma BracketedOperatorRewritten(field: string, op: string, ops: set<string>)
    requires |field| > 0 && forall i :: 0 <= i < |field| ==> IsWordChar(field[i])
    requires |op| > 0 && forall i :: 0 <= i < |op| ==> IsWordChar(op[i])
    requires field !in ops
    ensures Rewrite(field + ['['] + op + [']'], ops) ==
            field + ['['] + (if op in ops then "$" + op else op) + [']']
  {
    BracketShapes(field, op);
    RewriteWord(op, ops);
    RewriteSeparator(op, ']', "", ops);
    RewriteWord(field, ops);
    RewriteSeparator(field, '[', op + [']'], ops);
  }

  /** The filter with every key and every value rewritten. Keys cannot
      collide, because the rewrite is injective. */
  function RewriteFilter(f: map<string, string>, ops: set<string>): (r: map<string, string>)
    ensures forall k :: k in f ==> Rewrite(k, ops) in r && r[Rewrite(k, ops)] == Rewrite(f[k], ops)
    ensures forall k :: k in r ==> Unrewrite(k, ops) in f && Rewrite(Unrewrite(k, ops), ops) == k
  {
    assert forall k :: k in f ==> Unrewrite(Rewrite(k, ops), ops) == k by {
      forall k | k in f {
        UnrewriteRewrite(k, ops);
      }
    }
    map k | k in f :: Rewrite(k, ops) := Rewrite(f[k], ops)
  }

  /** The reserved keys are plain words that are not operators, so the
      rewrite and its inverse leave them alone. */
  lemma ReservedKeysUnrewritten(ops: set<string>)
    ensures forall k :: k in ReservedKeys ==> Unrewrite(k, ops) == k
  {
    forall k | k in ReservedKeys
      ensures Unrewrite(k, ops) == k
    {
      UnrewriteWord(k, ops);
    }
  }

  /** Keys outside a set of words that the inverse rewrite fixes stay outside
      it after the rewrite, and every rewritten key comes from an original. */
  lemma RewrittenKeysAvoid(f: map<string, string>, ops: set<string>, avoid: set<string>)
    requires forall k :: k in avoid ==> Unrewrite(k, ops) == k
    requires forall k :: k in f ==> k !in avoid
    ensures forall k :: k in RewriteFilter(f, ops) ==> k !in avoid
    ensures forall k :: k in RewriteFilter(f, ops) ==> exists q :: q in f && Rewrite(q, ops) == k
  {
    var r := RewriteFilter(f, ops);
    forall k | k in r
      ensures k !in avoid && exists q :: q in f && Rewrite(q, ops) == k
    {
      var q := Unrewrite(k, ops);
      assert q in f && Rewrite(q, ops) == k;
    }
  }

  /** The top-level field a filter key conditions: the key up to its first
      `[`, as `price[$gte]` conditions `price`. */
  function FieldOf(key: string): (f: string)
    ensures f <= key
    ensures '[' !in f
    ensures |f| < |key| ==> key[|f|] == '['
  {
    if |key| == 0 || key[0] == '[' then "" else [key[0]] + FieldOf(key[1..])
  }

  /** A key without brackets is a field of its own. */
  lemma {:induction false} FieldOfPlain(key: string)
    requires '[' !in key
    ensures FieldOf(key) == key
  {
    if |key| > 0 {
      FieldOfPlain(key[1..]);
    }
  }

  /** The reserved keys are plain words, each its own field. */
  lemma ReservedKeysArePlain()
    ensures forall k :: k in ReservedKeys ==> FieldOf(k) == k
  {
    forall k | k in ReservedKeys
      ensures FieldOf(k) == k
    {
      FieldOfPlain(k);
    }
  }

  /** The filter part of a query: every parameter whose field is reserved,
      with or without brackets, removed, then rewritten. No reserved
      parameter reaches the database filter, and every other parameter
      does, rewritten. */
  function FilterOf(query: map<string, string>, ops: set<string>): (r: map<string, string>)
    ensures forall k :: k in r ==> k !in ReservedKeys
    ensures forall k :: k in query && FieldOf(k) !in ReservedKeys ==>
              Rewrite(k, ops) in r && r[Rewrite(k, ops)] == Rewrite(query[k], ops)
    ensures forall k :: k in query && FieldOf(k) in ReservedKeys ==> Rewrite(k, ops) !in r
    ensures forall k :: k in r ==> exists q :: q in query && FieldOf(q) !in ReservedKeys && Rewrite(q, ops) == k
  {
    var f := map k | k in query && FieldOf(k) !in ReservedKeys :: query[k];
    ReservedKeysArePlain();
    ReservedKeysUnrewritten(ops);
    RewrittenKeysAvoid(f, ops, ReservedKeys);
    DroppedKeysStayOut(query, f, ops);
    RewriteFilter(f, ops)
  }

  /** A parameter left out of `f` has no rewritten key in the filter, since
      the rewrite is injective. */
  lemma DroppedKeysStayOut(query: map<string, string>, f: map<string, string>, ops: set<string>)
    requires forall k :: k in f ==> k in query && FieldOf(k) !in ReservedKeys
    requires forall k :: k in query && FieldOf(k) !in ReservedKeys ==> k in f
    ensures forall k :: k in query && FieldOf(k) in ReservedKeys ==> Rewrite(k, ops) !in RewriteFilter(f, ops)
  {
    forall k | k in query && FieldOf(k) in ReservedKeys
      ensures Rewrite(k, ops) !in RewriteFilter(f, ops)
    {
      UnrewriteRewrite(k, ops);
      assert Rewrite(k, ops) in RewriteFilter(f, ops) ==> k in f;
    }
  }
}

=== FILE: pagination.dfy ===
/** Offset/limit pagination of the list handlers and the `next`/`prev`
    descriptor they return. */
module Pagination {
  import opened Common
  import opened Text

  /** Default page size of the booking list. */
  const BookingPageSize := 10
  /** Default page size of the campground list. */
  const CampgroundPageSize := 25

  datatype PageRef = PageRef(page: int, limit: int)

  /** The `pagination` object of a list response. */
  datatype Descriptor = Descriptor(next: Option<PageRef>, prev: Option<PageRef>)

  /** The page asked for and the slice of the result it covers. */
  datatype Window = Window(page: int, limit: int, startIndex: int, endIndex: int)

  /** `parseInt(param, 10) || fallback`: a parameter that is missing, does not
      start with a number, or reads as zero gives the fallback. */
  function IntParam(param: Option<string>, fallback: int): (v: int)
    ensures param.None? ==> v == fallback
    ensures param.Some? && ParseInt(param.value).Some? && ParseInt(param.value).value != 0 ==>
              v == ParseInt(param.value).value
    ensures param.Some? && (ParseInt(param.value).None? || ParseInt(param.value).value == 0) ==>
              v == fallback
  {
    match param
    case None => fallback
    case Some(s) =>
      match ParseInt(s)
      case None => fallback
      case Some(n) => if n == 0 then fallback else n
  }

  /** The window of a request: `page` defaults to 1 and `limit` to the
      handler's page size; `startIndex = (page-1)*limit`, `endIndex = page*limit`. */
  function MakeWindow(pageParam: Option<string>, limitParam: Option<string>, pageSize: int): (w: Window)
    requires pageSize > 0
    ensures w.page == IntParam(pageParam, 1) && w.limit == IntParam(limitParam, pageSize)
    ensures w.startIndex == (w.page - 1) * w.limit
    ensures w.page != 0 && w.limit != 0
    ensures pageParam.None? ==> w.page == 1 && w.startIndex == 0
    ensures limitParam.None? ==> w.limit == pageSize
    ensures w.endIndex == w.startIndex + w.limit
    ensures w.page > 0 && w.limit > 0 ==> w.startIndex >= 0
  {
    var page := IntParam(pageParam, 1);
    var limit := IntParam(limitParam, pageSize);
    WindowArithmetic(page, limit);
    Window(page, limit, (page - 1) * limit, page * limit)
  }

  /** The end index is one limit past the start index, and positive page and
      limit give a non-negative start. */
  lemma WindowArithmetic(page: int, limit: int)
    ensures page * limit == (page - 1) * limit + limit
    ensures page > 0 && limit > 0 ==> (page - 1) * limit >= 0
  {
    if page > 0 && limit > 0 {
      MulNonNegative(page - 1, limit);
    }
  }

  lemma MulNonNegative(a: int, b: int)
    requires a >= 0 && b >= 0
    ensures a * b >= 0
  {
  }

  /** The descriptor: `next` when the window ends before `total`, `prev` when
      it starts after the first record. */
  function Describe(w: Window, total: nat): (d: Descriptor)
    ensures d.next.Some? <==> w.endIndex < total
    ensures d.next.Some? ==> d.next.value == PageRef(w.page + 1, w.limit)
    ensures d.prev.Some? <==> w.startIndex > 0
    ensures d.prev.Some? ==> d.prev.value == PageRef(w.page - 1, w.limit)
  {
    Descriptor(
      if w.endIndex < total then Some(PageRef(w.page + 1, w.limit)) else None,
      if w.startIndex > 0 then Some(PageRef(w.page - 1, w.limit)) else None)
  }

  function Min(a: int, b: int): int {
    if a <= b then a else b
  }

  function Abs(a: int): nat {
    if a < 0 then -a else a
  }

  /** The database's `skip(skip).limit(limit)` over the ordered result: a
      negative skip is rejected, a zero limit means no limit, and a negative
      limit returns at most its magnitude. */
  function Take<T>(rows: seq<T>, skip: int, limit: int): (r: Option<seq<T>>)
    ensures r.None? <==> skip < 0
    ensures r.Some? && limit != 0 ==> |r.value| <= Abs(limit)
    ensures r.Some? && skip <= |rows| && limit != 0 ==> |r.value| == Min(Abs(limit), |rows| - skip)
    ensures r.Some? && skip <= |rows| ==> skip + |r.value| <= |rows| && r.value == rows[skip..skip + |r.value|]
    ensures r.Some? && skip >= |rows| ==> r.value == []
    ensures r.Some? && skip <= |rows| && (limit == 0 || Abs(limit) >= |rows| - skip) ==>
              r.value == rows[skip..]
  {
    if skip < 0 then None
    else
      var from := Min(skip, |rows|);
      var n := if limit == 0 then |rows| - from else Min(Abs(limit), |rows| - from);
      Some(rows[from..from + n])
  }

  /** The rows a window shows. */
  function PageOf<T>(rows: seq<T>, w: Window): Option<seq<T>> {
    Take(rows, w.startIndex, w.limit)
  }

  /** Page `page` of `rows` with a positive page size, as the handlers compute it. */
  function PageRows<T>(rows: seq<T>, page: nat, limit: nat): seq<T>
    requires page >= 1 && limit >= 1
  {
    var r := Take(rows, (page - 1) * limit, limit);
    r.value
  }

  /** The first `k` pages, one after the other. */
  function FirstPages<T>(rows: seq<T>, k: nat, limit: nat): seq<T>
    requires limit >= 1
  {
    if k == 0 then [] else FirstPages(rows, k - 1, limit) + PageRows(rows, k, limit)
  }

  /** With a positive page size the pages tile the result: the first `k` pages
      together are exactly its first `k*limit` rows, so no row is skipped or
      shown twice. */
  lemma {:induction false} PagesTile<T>(rows: seq<T>, k: nat, limit: nat)
    requires limit >= 1
    ensures FirstPages(rows, k, limit) == rows[..Min(k * limit, |rows|)]
  {
    if k > 0 {
      PagesTile(rows, k - 1, limit);
      var a := Min((k - 1) * limit, |rows|);
      var b := Min(k * limit, |rows|);
      assert k * limit == (k - 1) * limit + limit;
      var p := PageRows(rows, k, limit);
      assert p == rows[a..b];
      assert rows[..a] + rows[a..b] == rows[..b];
    }
  }

  /** Over an unfiltered listing (`total` is the number of rows the query
      returns) `next` is offered exactly when the next page has rows. */
  lemma NextIffMoreRows<T>(rows: seq<T>, pageParam: Option<string>, limitParam: Option<string>, pageSize: int)
    requires pageSize > 0
    requires var w := MakeWindow(pageParam, limitParam, pageSize); w.page >= 1 && w.limit >= 1
    ensures var w := MakeWindow(pageParam, limitParam, pageSize);
            Describe(w, |rows|).next.Some? <==> |PageRows(rows, w.page + 1, w.limit)| > 0
  {
    var w := MakeWindow(pageParam, limitParam, pageSize);
    assert w.page * w.limit == (w.page + 1 - 1) * w.limit;
  }

  /** The first page never has `prev`, whatever the limit: a missing page
      parameter and any parameter that reads as 1 (`1`, `01`, ` 1st`) both
      select page 1. */
  lemma FirstPageHasNoPrev(pageParam: Option<string>, limitParam: Option<string>, pageSize: int, total: nat)
    requires pageSize > 0
    requires pageParam.None? || ParseInt(pageParam.value) == Some(1)
    ensures Describe(MakeWindow(pageParam, limitParam, pageSize), total).prev == None
  {
    var w := MakeWindow(pageParam, limitParam, pageSize);
    assert w.page == 1;
    assert w.startIndex == 0 * w.limit == 0;
  }

  /** Twelve bookings at ten per page: page 1 shows ten and points to page 2;
      page 2 shows the last two and points back to page 1. */
  lemma TwelveRowsTwoPages<T>(rows: seq<T>, second: string)
    requires |rows| == 12
    requires ParseInt(second) == Some(2)
    ensures var w := MakeWindow(None, None, BookingPageSize);
            PageOf(rows, w) == Some(rows[..10])
            && Describe(w, 12) == Descriptor(Some(PageRef(2, 10)), None)
    ensures var w := MakeWindow(Some(second), None, BookingPageSize);
            PageOf(rows, w) == Some(rows[10..])
            && Describe(w, 12) == Descriptor(None, Some(PageRef(1, 10)))
  {
  }

  /** `total` counts the whole collection, not the rows the filter keeps, so a
      filtered first page can offer a `next` page that is empty. */
  lemma NextCanPointPastFilteredRows<T>(kept: seq<T>, second: string)
    requires |kept| == 1
    requires ParseInt(second) == Some(2)
    ensures Describe(MakeWindow(None, None, BookingPageSize), 12).next == Some(PageRef(2, 10))
    ensures PageOf(kept, MakeWindow(Some(second), None, BookingPageSize)) == Some([])
  {
  }
}

=== FILE: review_model.dfy ===
/** The Review schema: required references, text length and star range. */
module ReviewModel {
  import opened Common
  import opened Text

  const MinTextLength := 5
  const MaxTextLength := 500
  const MinStar: real := 1.0
  const MaxStar: real := 5.0

  /** A stored review. The star rating is a JavaScript number: the schema
      bounds it but does not ask for a whole number. */
  datatype Review = Review(text: string, star: real, user: Id, campground: Id, createdAt: int)

  /** The review fields a request body may carry. `createdAt` only has a
      default in the schema, so a body may set it. */
  datatype Fields = Fields(
    text: Option<string>,
    star: Option<real>,
    user: Option<Id>,
    campground: Option<Id>,
    createdAt: Option<int>)

  /** The `minlength`/`maxlength` validators, over JavaScript string length. */
  predicate ValidText(t: string) {
    MinTextLength <= Utf16Length(t) <= MaxTextLength
  }

  /** The `min`/`max` validators. */
  predicate ValidStar(x: real) {
    MinStar <= x <= MaxStar
  }

  predicate ValidReview(r: Review) {
    ValidText(r.text) && ValidStar(r.star)
  }

  /** `Review.create`: all four fields are required and must pass their
      validators; the creation time is `now` unless the body gives one. */
  function Create(f: Fields, now: int): (r: Option<Review>)
    ensures r.Some? <==>
              && f.text.Some? && f.star.Some? && f.user.Some? && f.campground.Some?
              && ValidText(f.text.value) && ValidStar(f.star.value)
    ensures r.Some? ==>
              && ValidReview(r.value)
              && r.value == Review(f.text.value, f.star.value, f.user.value, f.campground.value, f.createdAt.GetOr(now))
  {
    if f.text.None? || f.star.None? || f.user.None? || f.campground.None? then None
    else if !ValidText(f.text.value) || !ValidStar(f.star.value) then None
    else Some(Review(f.text.value, f.star.value, f.user.value, f.campground.value, f.createdAt.GetOr(now)))
  }

  /** `findByIdAndUpdate` with validators: the named fields are validated and
      replace the stored ones. */
  function ApplyUpdate(rv: Review, f: Fields): (r: Option<Review>)
    ensures r.Some? <==>
              (f.text.None? || ValidText(f.text.value)) && (f.star.None? || ValidStar(f.star.value))
    ensures r.Some? ==>
              r.value == Review(f.text.GetOr(rv.text), f.star.GetOr(rv.star),
                                f.user.GetOr(rv.user), f.campground.GetOr(rv.campground),
                                f.createdAt.GetOr(rv.createdAt))
    ensures r.Some? && ValidReview(rv) ==> ValidReview(r.value)
  {
    if (f.text.Some? && !ValidText(f.text.value)) || (f.star.Some? && !ValidStar(f.star.value)) then None
    else Some(Review(f.text.GetOr(rv.text), f.star.GetOr(rv.star),
                     f.user.GetOr(rv.user), f.campground.GetOr(rv.campground), f.createdAt.GetOr(rv.createdAt)))
  }

  /** Any five-character text with a star rating of 2.5 is accepted. */
  lemma FractionalStarAccepted(text: string, user: Id, campground: Id, now: int)
    requires |text| == 5
    ensures Create(Fields(text := Some(text), star := Some(2.5), user := Some(user),
                          campground := Some(campground), createdAt := None), now).Some?
  {
  }
}

=== FILE: reviews.dfy ===
/** The review controller: listing, reading, adding, updating and deleting
    reviews. */
module Reviews {
  import opened Common
  import opened Policy
  import opened Store
  import ReviewModel

  /** `getReviews`: the reviews of one campground when the route names one,
      all reviews otherwise. */
  function GetReviews(s: Store, campgroundId: Option<Id>): (r: set<Id>)
    ensures campgroundId.Some? ==>
              forall id :: id in r <==> id in s.reviews && s.reviews[id].campground == campgroundId.value
    ensures campgroundId.None? ==> r == s.reviews.Keys
  {
    if campgroundId.Some? then IdsWhere(s.reviews, (rv: ReviewModel.Review) => rv.campground == campgroundId.value)
    else s.reviews.Keys
  }

  /** The route's campground only narrows the full list: its reviews are
      the reviews of the full list that name that campground, and every
      review belongs to the list of the campground it names. */
  lemma CampgroundReviewsNarrowAll(s: Store, campground: Id)
    ensures GetReviews(s, Some(campground)) <= GetReviews(s, None)
    ensures forall id :: id in GetReviews(s, None) ==>
              (id in GetReviews(s, Some(campground)) <==> s.reviews[id].campground == campground)
    ensures forall id :: id in GetReviews(s, None) ==> id in GetReviews(s, Some(s.reviews[id].campground))
  {
  }

  /** `getReview`: any review by id, 404 when missing. */
  function GetReview(s: Store, id: Id): (r: (int, Option<ReviewModel.Review>))
    ensures id in s.reviews ==> r == (OK, Some(s.reviews[id]))
    ensures id !in s.reviews ==> r == (NotFound, None)
  {
    if id in s.reviews then (OK, Some(s.reviews[id])) else (NotFound, None)
  }

  /** `addReview`. A missing campground is 404 and nothing is created.
      Otherwise the review is stored with the route's campground and the
      actor as author, whatever the body says; a body the schema refuses
      answers 400. */
  function AddReview(s: Store, actor: Actor, campgroundId: Id, body: ReviewModel.Fields, newId: Id, now: int): (r: Reply)
    requires newId !in s.reviews
    ensures campgroundId !in s.campgrounds ==> r == Reply(NotFound, s, None)
    ensures r.status != Created ==> r.store == s
    ensures r.status in {Created, NotFound, BadRequest}
    ensures campgroundId in s.campgrounds && r.status != Created ==> r.status == BadRequest
    ensures r.status == Created <==>
              && campgroundId in s.campgrounds
              && body.text.Some? && body.star.Some?
              && ReviewModel.ValidText(body.text.value) && ReviewModel.ValidStar(body.star.value)
    ensures r.status == Created ==>
              && newId in r.store.reviews
              && r.store == s.(reviews := s.reviews[newId := r.store.reviews[newId]])
              && r.store.reviews[newId] ==
                   ReviewModel.Review(body.text.value, body.star.value, actor.id, campgroundId, body.createdAt.GetOr(now))
    ensures r.warning.None?
  {
    if campgroundId !in s.campgrounds then Reply(NotFound, s, None)
    else
      match ReviewModel.Create(body.(campground := Some(campgroundId), user := Some(actor.id)), now)
      case None => Reply(BadRequest, s, None)
      case Some(rv) => Reply(Created, s.(reviews := s.reviews[newId := rv]), None)
  }

  /** `updateReview`. A missing review is 404; an actor who is neither its
      author nor an admin gets 403 and the review is left as it is; a field
      the validators refuse answers 400. Otherwise the named fields, the
      creation time included, replace the stored ones and nothing else
      changes. */
  function UpdateReview(s: Store, actor: Actor, id: Id, body: ReviewModel.Fields): (r: Reply)
    ensures id !in s.reviews ==> r == Reply(NotFound, s, None)
    ensures id in s.reviews && !MayModify(actor, s.reviews[id].user) ==> r == Reply(Forbidden, s, None)
    ensures r.status != OK ==> r.store == s
    ensures r.status in {OK, NotFound, Forbidden, BadRequest}
    ensures id in s.reviews && MayModify(actor, s.reviews[id].user) && r.status != OK ==> r.status == BadRequest
    ensures r.status == OK <==>
              && id in s.reviews && MayModify(actor, s.reviews[id].user)
              && (body.text.None? || ReviewModel.ValidText(body.text.value))
              && (body.star.None? || ReviewModel.ValidStar(body.star.value))
    ensures r.status == OK ==>
              && id in r.store.reviews
              && r.store == s.(reviews := s.reviews[id := r.store.reviews[id]])
              && var prior := s.reviews[id];
                 r.store.reviews[id] ==
                   ReviewModel.Review(body.text.GetOr(prior.text), body.star.GetOr(prior.star),
                                      body.user.GetOr(prior.user), body.campground.GetOr(prior.campground),
                                      body.createdAt.GetOr(prior.createdAt))
    ensures r.warning.None?
  {
    if id !in s.reviews then Reply(NotFound, s, None)
    else if !MayModify(actor, s.reviews[id].user) then Reply(Forbidden, s, None)
    else
      match ReviewModel.ApplyUpdate(s.reviews[id], body)
      case None => Reply(BadRequest, s, None)
      case Some(rv) => Reply(OK, s.(reviews := s.reviews[id := rv]), None)
  }

  /** `deleteReview`. A missing review is 404; an actor who is neither its
      author nor an admin gets 403; otherwise exactly that review is
      removed. */
  function DeleteReview(s: Store, actor: Actor, id: Id): (r: Reply)
    ensures id !in s.reviews ==> r == Reply(NotFound, s, None)
    ensures id in s.reviews && !MayModify(actor, s.reviews[id].user) ==> r == Reply(Forbidden, s, None)
    ensures id in s.reviews && MayModify(actor, s.reviews[id].user) ==>
              && r.status == OK
              && r.store.reviews.Keys == s.reviews.Keys - {id}
              && (forall k :: k in r.store.reviews ==> r.store.reviews[k] == s.reviews[k])
              && r.store == s.(reviews := r.store.reviews)
  {
    if id !in s.reviews then Reply(NotFound, s, None)
    else if !MayModify(actor, s.reviews[id].user) then Reply(Forbidden, s, None)
    else Reply(OK, s.(reviews := s.reviews - {id}), None)
  }
}

=== FILE: store.dfy ===
/** The database the controllers talk to, as four finite maps from ids to
    records, and the reply every mutating handler produces. */
module Store {
  import opened Common
  import opened BookingModel
  import ReviewModel

  /** A registered user. The password is the stored hash. */
  datatype User = User(
    username: string,
    name: string,
    telephone: string,
    email: string,
    password: string,
    role: Role)

  /** A campground, with the fields the controllers read. */
  datatype Campground = Campground(
    name: string,
    province: string,
    description: string,
    tel: string,
    breakfast: bool,
    createdAt: int)

  datatype Store = Store(
    users: map<Id, User>,
    campgrounds: map<Id, Campground>,
    bookings: map<Id, Booking>,
    reviews: map<Id, ReviewModel.Review>)

  /** A handler's answer: the HTTP status, the database afterwards, and the
      breakfast warning when one is given. */
  datatype Reply = Reply(status: int, store: Store, warning: Option<string>)

  /** The ids of the records of `m` that satisfy `p`: a `find` by a field. */
  function IdsWhere<T>(m: map<Id, T>, p: T -> bool): (r: set<Id>)
    ensures forall id :: id in r <==> id in m && p(m[id])
  {
    set id | id in m && p(m[id])
  }

  /** The records of `m` that do not satisfy `p`, as they were: what
      `deleteMany` by a field leaves behind. */
  function DropWhere<T>(m: map<Id, T>, p: T -> bool): (r: map<Id, T>)
    ensures forall id :: id in r <==> id in m && !p(m[id])
    ensures forall id :: id in r ==> r[id] == m[id]
  {
    map id | id in m && !p(m[id]) :: m[id]
  }

  /** The ids of the bookings held by `user`. */
  function BookingsOf(bookings: map<Id, Booking>, user: Id): (r: set<Id>)
    ensures forall id :: id in r <==> id in bookings && bookings[id].user == user
  {
    IdsWhere(bookings, (b: Booking) => b.user == user)
  }

  /** The ids of the bookings of `campground`. */
  function BookingsAt(bookings: map<Id, Booking>, campground: Id): (r: set<Id>)
    ensures forall id :: id in r <==> id in bookings && bookings[id].campground == campground
  {
    IdsWhere(bookings, (b: Booking) => b.campground == campground)
  }

  /** Storing a new booking adds it to its owner's bookings only. */
  lemma BookingsOfInsert(bookings: map<Id, Booking>, id: Id, b: Booking, user: Id)
    requires id !in bookings
    ensures b.user == user ==> BookingsOf(bookings[id := b], user) == BookingsOf(bookings, user) + {id}
    ensures b.user != user ==> BookingsOf(bookings[id := b], user) == BookingsOf(bookings, user)
  {
  }

  /** `Booking.deleteMany({ user })`: the bookings of every other user. */
  function DropBookingsOf(bookings: map<Id, Booking>, user: Id): (r: map<Id, Booking>)
    ensures forall id :: id in r <==> id in bookings && bookings[id].user != user
    ensures forall id :: id in r ==> r[id] == bookings[id]
  {
    DropWhere(bookings, (b: Booking) => b.user == user)
  }

  /** `Booking.deleteMany({ campground })`: the bookings of every other campground. */
  function DropBookingsAt(bookings: map<Id, Booking>, campground: Id): (r: map<Id, Booking>)
    ensures forall id :: id in r <==> id in bookings && bookings[id].campground != campground
    ensures forall id :: id in r ==> r[id] == bookings[id]
  {
    DropWhere(bookings, (b: Booking) => b.campground == campground)
  }

  /** A set holding `n` has a least element, found by descending from `n`. */
  lemma {:induction false} LeastAtMost(ids: set<Id>, n: Id)
    requires n in ids
    ensures exists m :: m in ids && forall j :: j in ids ==> m <= j
    decreases n
  {
    if !(forall j :: j in ids ==> n <= j) {
      var j :| j in ids && j < n;
      LeastAtMost(ids, j);
    }
  }

  /** The least id of a non-empty set: the record a `findOne` returns when
      several match, with ascending id standing in for natural order. */
  function Least(ids: set<Id>): (m: Id)
    requires ids != {}
    ensures m in ids && forall j :: j in ids ==> m <= j
  {
    var some :| some in ids;
    LeastAtMost(ids, some);
    var m :| m in ids && forall j :: j in ids ==> m <= j;
    m
  }

  /** Every stored booking's duration matches its dates and every stored
      review passes the schema validators. */
  predicate ValidStore(s: Store) {
    && (forall id :: id in s.bookings ==> DurationConsistent(s.bookings[id]))
    && (forall id :: id in s.reviews ==> ReviewModel.ValidReview(s.reviews[id]))
  }

  /** No user with the `user` role holds more than `cap` bookings. */
  predicate WithinCap(s: Store, cap: nat) {
    forall u :: u in s.users && s.users[u].role == UserRole ==> |BookingsOf(s.bookings, u)| <= cap
  }
}

=== FILE: text.dfy ===
/** The JavaScript string primitives the controllers rely on: character
    classes, `String(n)` for integers, `parseInt(s, 10)`, and
    `split`/`join` with a one-character separator. */
module Text {
  import opened Common

  predicate IsDigit(c: char) {
    '0' <= c <= '9'
  }

  /** The characters `\w` matches in a JavaScript regular expression; `\b` is a
      boundary between one of these and anything else. */
  predicate IsWordChar(c: char) {
    'a' <= c <= 'z' || 'A' <= c <= 'Z' || IsDigit(c) || c == '_'
  }

  /** The white space and line terminators `parseInt` skips before the number:
      tab, line feed, vertical tab, form feed, carriage return, the Unicode
      space separators, the two Unicode line/paragraph separators and the
      byte-order mark. */
  predicate IsJsSpace(c: char) {
    || c == '\t' || c == '\n' || c == '\U{000B}' || c == '\U{000C}' || c == '\r'
    || c == ' ' || c == '\U{00A0}' || c == '\U{1680}' || ('\U{2000}' <= c <= '\U{200A}')
    || c == '\U{2028}' || c == '\U{2029}' || c == '\U{202F}' || c == '\U{205F}'
    || c == '\U{3000}' || c == '\U{FEFF}'
  }

  predicate AllDigits(s: string) {
    forall i :: 0 <= i < |s| ==> IsDigit(s[i])
  }

  function DigitChar(d: nat): (c: char)
    requires d < 10
    ensures IsDigit(c)
  {
    ('0' as int + d) as char
  }

  function DigitValue(c: char): nat
    requires IsDigit(c)
  {
    c as int - '0' as int
  }

  /** The decimal numeral of `n`, without leading zeros. */
  function NatToDecimal(n: nat): (r: string)
    ensures |r| > 0 && AllDigits(r)
    decreases n
  {
    if n < 10 then [DigitChar(n)] else NatToDecimal(n / 10) + [DigitChar(n % 10)]
  }

  /** JavaScript's `String(n)` for an integer; exact for magnitudes below 10^21,
      which covers every day count between two valid JavaScript dates. */
  function IntToDecimal(n: int): string {
    if n < 0 then "-" + NatToDecimal(-n) else NatToDecimal(n)
  }

  /** The value of a digit string read in base 10. */
  function DigitsValue(s: string): nat
    requires AllDigits(s)
    decreases |s|
  {
    if |s| == 0 then 0 else 10 * DigitsValue(s[..|s| - 1]) + DigitValue(s[|s| - 1])
  }

  /** Length of the longest digit prefix of `s`. */
  function DigitRunLen(s: string): (n: nat)
    ensures n <= |s|
    ensures forall i :: 0 <= i < n ==> IsDigit(s[i])
    ensures n < |s| ==> !IsDigit(s[n])
    decreases |s|
  {
    if |s| == 0 || !IsDigit(s[0]) then 0 else 1 + DigitRunLen(s[1..])
  }

  /** `s` without its leading JavaScript white space. */
  function TrimStart(s: string): (r: string)
    ensures |r| <= |s| && r == s[|s| - |r|..]
    ensures |r| > 0 ==> !IsJsSpace(r[0])
    decreases |s|
  {
    if |s| > 0 && IsJsSpace(s[0]) then TrimStart(s[1..]) else s
  }

  /** The number written by the longest digit prefix of `u`, if there is one. */
  function ParseDigits(u: string): Option<int> {
    var n := DigitRunLen(u);
    if n == 0 then None else Some(DigitsValue(u[..n]))
  }

  /** JavaScript's `parseInt(s, 10)`; `None` stands for `NaN`. Leading white
      space and one sign are accepted, then the longest run of digits is read
      and anything after it is ignored. */
  function ParseInt(s: string): Option<int> {
    var t := TrimStart(s);
    if |t| > 0 && t[0] == '-' then
      match ParseDigits(t[1..])
      case None => None
      case Some(v) => Some(-v)
    else if |t| > 0 && t[0] == '+' then ParseDigits(t[1..])
    else ParseDigits(t)
  }

  lemma {:induction false} DigitsValueOfDecimal(n: nat)
    ensures DigitsValue(NatToDecimal(n)) == n
    decreases n
  {
    if n >= 10 {
      var p := NatToDecimal(n / 10);
      var s := p + [DigitChar(n % 10)];
      assert s[..|s| - 1] == p;
      DigitsValueOfDecimal(n / 10);
    }
  }

  lemma {:induction false} DigitRunLenOfDigits(d: string, rest: string)
    requires AllDigits(d)
    requires |rest| == 0 || !IsDigit(rest[0])
    ensures DigitRunLen(d + rest) == |d|
    decreases |d|
  {
    if |d| > 0 {
      assert (d + rest)[1..] == d[1..] + rest;
      DigitRunLenOfDigits(d[1..], rest);
    } else {
      assert d + rest == rest;
    }
  }

  lemma ParseDigitsOfDecimal(m: nat, rest: string)
    requires |rest| == 0 || !IsDigit(rest[0])
    ensures ParseDigits(NatToDecimal(m) + rest) == Some(m)
  {
    var digits := NatToDecimal(m);
    DigitRunLenOfDigits(digits, rest);
    DigitsValueOfDecimal(m);
    assert (digits + rest)[..|digits|] == digits;
  }

  /** `parseInt` reads back what `String(n)` wrote, whatever non-digit text
      follows the numeral. */
  lemma ParseIntOfDecimal(n: int, rest: string)
    requires |rest| == 0 || !IsDigit(rest[0])
    ensures ParseInt(IntToDecimal(n) + rest) == Some(n)
  {
    var s := IntToDecimal(n) + rest;
    if n < 0 {
      var m: nat := -n;
      assert s == "-" + NatToDecimal(m) + rest;
      ParseIntNegative(m, rest);
      assert ParseInt(s) == Some(-(m as int));
    } else {
      assert s == NatToDecimal(n) + rest;
      ParseIntNonNegative(n, rest);
    }
  }

  lemma ParseIntNegative(m: nat, rest: string)
    requires m > 0
    requires |rest| == 0 || !IsDigit(rest[0])
    ensures ParseInt("-" + NatToDecimal(m) + rest) == Some(-(m as int))
  {
    var d := NatToDecimal(m);
    ParseDigitsOfDecimal(m, rest);
    ParseIntOfSign(d + rest, m);
    Associate("-", d, rest);
  }

  lemma Associate(x: string, y: string, z: string)
    ensures x + y + z == x + (y + z)
  {
  }

  lemma ParseIntNonNegative(n: nat, rest: string)
    requires |rest| == 0 || !IsDigit(rest[0])
    ensures ParseInt(NatToDecimal(n) + rest) == Some(n)
  {
    var d := NatToDecimal(n);
    assert IsDigit((d + rest)[0]);
    ParseIntOfDigit(d + rest);
    ParseDigitsOfDecimal(n, rest);
  }

  /** A string that starts with a digit is read from its first character. */
  lemma ParseIntOfDigit(s: string)
    requires |s| > 0 && IsDigit(s[0])
    ensures ParseInt(s) == ParseDigits(s)
  {
    NoLeadingSpace(s);
  }

  /** A `-` followed by digits is read as their negation. */
  lemma ParseIntOfSign(u: string, v: int)
    requires ParseDigits(u) == Some(v)
    ensures ParseInt("-" + u) == Some(-v)
  {
    var s := "-" + u;
    assert s[0] == '-' && s[1..] == u;
    NoLeadingSpace(s);
  }

  lemma NoLeadingSpace(s: string)
    requires |s| > 0 && (IsDigit(s[0]) || s[0] == '-')
    ensures TrimStart(s) == s
  {
    assert !IsJsSpace(s[0]);
  }

  /** JavaScript's `s.split(sep)` for a one-character separator: the maximal
      separator-free pieces, including empty ones at the ends. */
  function Split(s: string, sep: char): (parts: seq<string>)
    ensures |parts| > 0
    ensures forall i :: 0 <= i < |parts| ==> sep !in parts[i]
    decreases |s|
  {
    if |s| == 0 then [""]
    else
      var rest := Split(s[1..], sep);
      if s[0] == sep then [""] + rest
      else [[s[0]] + rest[0]] + rest[1..]
  }

  /** JavaScript's `parts.join(glue)`. */
  function Join(parts: seq<string>, glue: string): string
    decreases |parts|
  {
    if |parts| == 0 then ""
    else if |parts| == 1 then parts[0]
    else parts[0] + glue + Join(parts[1..], glue)
  }

  /** Reference definition: every `from` character replaced by `to`. */
  function ReplaceChar(s: string, from: char, to: char): string {
    seq(|s|, i requires 0 <= i < |s| => if s[i] == from then to else s[i])
  }

  lemma JoinConsHead(c: char, parts: seq<string>, glue: string)
    requires |parts| > 0
    ensures Join([[c] + parts[0]] + parts[1..], glue) == [c] + Join(parts, glue)
  {
    var q := [[c] + parts[0]] + parts[1..];
    if |parts| > 1 {
      assert q[1..] == parts[1..];
    }
  }

  /** Splitting on one character and joining with another replaces the first
      by the second and changes nothing else. */
  lemma {:induction false} JoinSplitReplaces(s: string, sep: char, glue: char)
    ensures Join(Split(s, sep), [glue]) == ReplaceChar(s, sep, glue)
    decreases |s|
  {
    if |s| > 0 {
      var rest := Split(s[1..], sep);
      JoinSplitReplaces(s[1..], sep, glue);
      if s[0] == sep {
        assert ([""] + rest)[1..] == rest;
      } else {
        JoinConsHead(s[0], rest, [glue]);
      }
      assert ReplaceChar(s, sep, glue)
          == [if s[0] == sep then glue else s[0]] + ReplaceChar(s[1..], sep, glue);
    }
  }

  /** `split` followed by a `join` on the same separator gives the input back. */
  lemma SplitJoinRoundTrip(s: string, sep: char)
    ensures Join(Split(s, sep), [sep]) == s
  {
    JoinSplitReplaces(s, sep, sep);
    assert ReplaceChar(s, sep, sep) == s;
  }

  /** `s.split(",").join(" ")`, used for the `select` and `sort` parameters. */
  function CommaListToSpaces(s: string): (r: string)
    ensures |r| == |s|
    ensures forall i :: 0 <= i < |s| ==> r[i] == (if s[i] == ',' then ' ' else s[i])
    ensures ',' !in r
  {
    JoinSplitReplaces(s, ',', ' ');
    Join(Split(s, ','), " ")
  }

  /** The number of UTF-16 code units of `s`: JavaScript's `s.length`, which
      counts a character outside the Basic Multilingual Plane twice. */
  function Utf16Length(s: string): (n: nat)
    ensures |s| <= n <= 2 * |s|
    decreases |s|
  {
    if |s| == 0 then 0
    else (if s[0] as int > 0xFFFF then 2 else 1) + Utf16Length(s[1..])
  }
}
